=== FILE: README.md ===
# Brain Defense typing game, modelled in Dafny

Brain Defense is a small pygame typing game. Zombies walk from the screen edges towards a
brain in the middle. Each zombie carries a word. Typing the first letter of a word targets
that zombie. Typing the rest of the word, letter by letter, destroys it for 5 points a
letter. A zombie that reaches the brain takes 5 health, and the match ends at 0. Every 30
seconds (60 from level 4 on) the difficulty level rises. A rise speeds up every zombie and
brings a burst of new ones. A separate spawn timer adds one zombie at a time.

The model follows the three source modules. It leaves out rendering and sound.

| module | file | source |
|---|---|---|
| `Results` | results.dfy | `Option` and `Result` (failure-compatible) |
| `Text` | text.dfy | the `str` methods used: `lower`, `strip`, `isalpha`, `startswith`, slicing |
| `Lists` | lists.dfy | "first element such that", and `list.remove` of a known element |
| `Palette` | palette.dfy | the three colours used for tiers and the health bar |
| `Words` | words.dfy | `load_words` |
| `Sheets` | sheets.dfy | `split_sheet` |
| `Zombies` | zombies.dfy | `ZombieData`, `Zombie.__init__`, `Zombie.update`, the label split of `Zombie.draw` |
| `Brains` | brains.dfy | `Brain.__init__`, `Brain.update`, the health-bar colour |
| `Difficulty` | difficulty.dfy | `get_difficulty_interval`, `get_difficulty_tag`, `get_difficulty_color` |
| `Typing` | typing.dfy | `update_typing` |
| `Game` | game.dfy | the match state, `reset_game`, `spawn_zombie`, `update`, whole matches |
| `Screens` | screens.dfy | the event handling and frame loop of `run` |
| `Scenarios` | scenarios.dfy | worked keystroke sequences |

Modelling choices:

- State is immutable. Every method that mutates `self` becomes a function from the old
  state to the new one.
- Positions and timers are `real`. Health, level and score are integers.
- `math.dist(a, b) < r` is compared squared, as `SqDist(a, b) < r * r` (with `r > 0`). The
  "still more than 5 away" guard of `Zombie.update` is `SqDist > 25`.
- The step vector `(dx / distance * speed, dy / distance * speed)` needs a square root. It
  is a parameter, `Mover`, supplied by the caller.
- Randomness comes in as data. `spawn_zombie` draws a side, a vertical offset, a word and a
  sprite kind; these form one `SpawnChoice`. A tick receives exactly as many choices as it
  spawns zombies (`SpawnsDue`), each from the ranges the source draws from.
- `random.choice` on an empty word list raises `IndexError`. This is modelled as
  `Err(EmptyWordList)`, which the tick, a whole match and the frame loop propagate.
- `list.remove(z)` compares zombies by identity, since `Zombie` defines no `__eq__`. It is
  modelled as removing the known position (`RemoveAt`).
- Zombie sprites are reduced to the length of each kind's walk clip (`Config.walkFrames`).
  The screen size is part of `Config`, because the constants module is not part of this
  model.

Behaviour of the code that is easy to misread:

- When nothing is targeted, every matching zombie is highlighted. Only the first matching
  zombie (`matches[0]`) gets the letter as typed progress, not all of them.
- Levels up to 3 are labelled Easy, including the starting level 0.
- Once the level is above 0, a fired spawn timer sets the delay to a per-level constant,
  `max(0.8, max(0.8, 3.0 - 0.3 * level) - 0.05)`. It does not decay by 0.05 on each spawn.
  Only at level 0 does the delay step down by 0.05 per spawn, to the 1.5 floor.
- When the first match of a targeting keystroke has a one-letter word, that keystroke
  fills the word and scores nothing. The next keystroke then sees an empty expected letter
  and always misses, which clears the progress again
  (`Typing.OneLetterFirstMatchMissesNext`). A one-letter zombie that was highlighted but
  not the first match can still be shot down later: once the zombie ahead of it is gone,
  it becomes the target with no progress and its letter completes it
  (`Scenarios.OneLetterBehindLeader`). The loaded word list
  can contain one-letter words, since `isalpha` accepts them.

## Model

| member | source | states |
|---|---|---|
| Text.LowerChar | src/game.py:175 | lower-casing keeps letters letters and non-letters unchanged; an upper-case letter becomes the lower-case letter at the same place in the alphabet |
| Text.Lower | src/game.py:121 | `lower()` keeps the length and lower-cases each character independently; the result has no upper-case letter, is alphabetic exactly when the input is, and a string without upper-case letters is unchanged |
| Text.Slice | src/game.py:182-184 | Python slicing clamps both bounds: an empty result past the end or for an empty range, the exact slice inside the string, the whole suffix from `i` when `j` runs past the end; a non-empty result starts with `s[i]` |
| Text.Drop | src/zombie.py:89 | `word[n:]` is the suffix after the first `n` characters, empty once `n` reaches the length |
| Text.TrimStart | src/game.py:121 | the result is a suffix; everything cut is whitespace; the result starts with a non-space |
| Text.TrimEnd | src/game.py:121 | the result is a prefix; everything cut is whitespace; the result ends with a non-space |
| Text.Lead | src/game.py:121 | the leading whitespace run: all spaces before it, a non-space at it, and `lstrip()` leaves exactly the rest |
| Text.Strip | src/game.py:121 | `strip()` leaves a prefix of what `lstrip()` leaves, bounded by non-space characters; everything cut at either end is whitespace; a string without whitespace is unchanged |
| Text.StripCuts | src/game.py:121 | cutting leading whitespace and then trailing whitespace leaves an infix with only whitespace on both sides |
| Lists.First | src/game.py:176-181 | the index returned is the first element satisfying the filter; none is returned exactly when no element satisfies it |
| Lists.RemoveAt | src/game.py:191 | removing one element by identity drops exactly that position and keeps the others in order |
| Words.LoadWords | src/game.py:115-124 | the words are normalized lines (stripped, lower-cased); exactly the lines whose normal form is alphabetic are kept; every kept word is non-empty lower-case letters |
| Words.LoadWordsInOrder | src/game.py:115-124 | the word list keeps the file's order and its duplicates: loading two runs of lines gives the words of the first run followed by the words of the second, and a single line gives its normal form exactly when that is alphabetic |
| Words.KeepOrDrop | src/game.py:120-123 | keeping or dropping one more line preserves all of the filter's promises |
| Words.AlphaIsGameWord | src/game.py:121-122 | a line is alphabetic after lower-casing exactly when it was before, and then it is all lower-case letters |
| Words.LoadedWordsAreTypeable | src/game.py:121-123 | every loaded word is non-empty and unchanged by `lower()`, so its letters can be typed as keys |
| Sheets.FrameCount | src/game.py:130 | `w // frame_w` frames fit in the sheet, and one more would not |
| Sheets.SplitSheet | src/game.py:126-133 | the frames have width `min(w, h)` and the sheet's full height `h` (squares when w >= h, one w-by-h frame when w < h), sit at left offsets `i * width`, all inside the sheet, and are as many as fit; a zero width is the division-by-zero error |
| Zombies.NewData | src/zombie.py:7-17 | a new record is neither highlighted, dead nor from the right, and keeps the given position, word, progress, kind and path progress |
| Zombies.New | src/zombie.py:20-31 | a new zombie keeps its record, starts on frame 0 of its clip with a zero timer, a 0.2 s frame delay, a 256 by 256 sprite and speed multiplier 1 |
| Zombies.NextFrame | src/zombie.py:40-41 | the next walk frame wraps from the last frame to 0, and a missing clip leaves the counter alone |
| Zombies.Update | src/zombie.py:33-49 | a dead zombie is unchanged; only position and animation change; the frame advances exactly when the timer reaches 0.2 s; within 5 units of the target the zombie stops, otherwise it moves by `30 * dt * multiplier` along the given step |
| Zombies.Split | src/zombie.py:88-89 | the typed part followed by the remaining part is the word, whenever the typed part is a prefix of it |
| Zombies.LabelShowsWord | src/zombie.py:88-100 | with or without typed progress, the label reads as the whole word |
| Zombies.FramesStayInClip | src/zombie.py:37-41 | over any number of ticks the frame index stays inside the walk clip, and word and progress are untouched |
| Brains.New | src/brain.py:6-16 | a new brain has full health 100 of 100, radius 28, glow 0 rising, and is drawn at its own position |
| Brains.Update | src/brain.py:18-25 | after a tick the glow lies in [0.4, 1.0]; reaching 1.0 turns it down and reaching 0.4 turns it up; nothing but the glow changes |
| Brains.HealthColor | src/brain.py:55-57 | the bar is green exactly above 50 health and red exactly at 25 or below |
| Brains.HealthColorMonotone | src/brain.py:55-57 | less health never shows a healthier colour |
| Brains.GlowStaysBounded | src/brain.py:18-25 | over any run of ticks, health, position and radius stay fixed, the direction stays ±1, and after at least one tick the glow lies in [0.4, 1.0] |
| Difficulty.Interval | src/game.py:209-215 | the interval is 30 seconds exactly for levels up to 3 and 60 seconds exactly above |
| Difficulty.TagOf | src/game.py:217-223 | the tag is Easy exactly up to level 3, Medium exactly for levels 4 to 6, Hard exactly above 6 |
| Difficulty.ColorOf | src/game.py:225-231 | the colour is green exactly up to level 3, yellow exactly for levels 4 to 6, red exactly above 6 |
| Difficulty.TiersAgree | src/game.py:209-231 | tag, colour and interval partition the levels into the same three tiers; only the Easy tier has the 30-second interval; later levels never get an easier tier |
| Typing.Expected | src/game.py:182-184 | the expected letter is at most one character: the word's next letter while the progress is a proper prefix, nothing once the progress is as long as the word |
| Typing.ClearAll | src/game.py:194-197 | a miss clears every zombie's typed progress and highlight and changes nothing else; afterwards nothing is targeted and both typing invariants hold whatever held before |
| Typing.Unhighlight | src/game.py:192-193 | after a kill every remaining highlight is cleared and typed progress is kept; afterwards nothing is targeted, and progress that was a prefix of its word still is |
| Typing.Acquire | src/game.py:198-207 | targeting highlights exactly the live zombies whose word starts with the letter; only the first of them gets the letter as progress |
| Typing.WordPoints | src/game.py:188 | a word is worth a non-negative multiple of 5 points: nothing for the empty word, 5 for a single letter |
| Typing.WordPointsAdd | src/game.py:188 | a word is worth the sum of its parts, so with one letter worth 5 every letter adds exactly 5 points |
| Typing.Advance | src/game.py:185-193 | the expected letter either completes the word (that zombie removed, 5 points a letter, highlights cleared) or extends the target's progress by the letter; progress stays a prefix and on the target alone |
| Typing.Strike | src/game.py:180-197 | with a target, the expected letter advances it and any other letter clears all marks; the score grows only by whole words |
| Typing.RemovedUnhighlighted | src/game.py:191-193 | after removing the killed zombie and clearing highlights, earlier zombies keep their place and later ones shift down by one |
| Typing.UpdateTyping | src/game.py:171-207 | the full keystroke state machine: an empty key is ignored; the complete-hit, partial-hit, miss and targeting branches each have their exact effect; the score never decreases and grows in steps of 5; no zombie is added; progress stays a prefix of the word and on the target alone |
| Typing.ExtendPrefix | src/game.py:182-186 | appending the expected next letter to a prefix of the word gives a longer prefix |
| Typing.NoTargetWhenUnhighlighted | src/game.py:176-180 | with no zombie highlighted there is no target |
| Typing.TargetKept | src/game.py:181-186 | re-marking the target as highlighted keeps it the target |
| Typing.FocusAfterCompletion | src/game.py:190-193 | after a kill no zombie is highlighted, so no leftover progress is off-target |
| Typing.FocusAfterAcquire | src/game.py:199-207 | after targeting, the only zombie with progress is the new target |
| Typing.TypingKeepsInvariants | src/game.py:171-207 | over any run of keystrokes progress stays a prefix and on one target, no zombie appears, and the score never decreases |
| Typing.NextLetter | src/game.py:180-193 | typing the target's next letter either completes and scores the word or keeps the same target with one more letter |
| Typing.FinishingWordScoresIt | src/game.py:180-193 | typing the rest of the target's word scores 5 points per letter of the whole word and removes that zombie alone |
| Typing.OneLetterFirstMatchMissesNext | src/game.py:180-207 | when the first match of a keystroke has a one-letter word, the keystroke fills it without scoring and the next keystroke, whatever it is, misses and clears that progress |
| Scenarios.SharedFirstLetter | src/game.py:171-207 | with "cat" and "car" on screen, 'c' highlights both but advances only "cat"; 'a', 't' score 15 and leave "car" without progress or highlight |
| Scenarios.CatCarFirst | src/game.py:198-207 | 'c' highlights "cat" and "car" and gives progress to "cat" |
| Scenarios.CatCarSecond | src/game.py:180-186 | 'a' extends "cat" to "ca" |
| Scenarios.CatCarThird | src/game.py:185-193 | 't' completes "cat" for 15 points and unhighlights "car" |
| Scenarios.OneLetterBehindLeader | src/game.py:171-207 | with "ab" and "a" on screen, 'a' highlights both and gives progress to "ab" only; once "ab" is removed, 'a' shoots "a" down for 5 points |
| Scenarios.LeaderFirst | src/game.py:198-207 | 'a' highlights "ab" and "a" and gives progress to "ab" |
| Scenarios.LoneLetterShot | src/game.py:180-193 | a highlighted one-letter zombie with no progress is completed by its letter for 5 points |
| Scenarios.WrongLetterMidWord | src/game.py:171-207 | on "game", the keys g, a, m build "gam" and a wrong 'x' puts the board back as it started, with no score |
| Scenarios.GameFirst | src/game.py:198-207 | 'g' targets "game" with progress "g" |
| Scenarios.GameExtend | src/game.py:180-186 | the right next letter of "game" extends the progress by it |
| Scenarios.GameWrong | src/game.py:194-197 | a wrong letter clears "gam" and the highlight |
| Game.Start | src/game.py:55-67 | the match `reset_game` builds (and `__init__` starts with; `Reset` returns it) is valid: full health, not over, no score, no zombies, no input, level 0, spawn delay 3, all three clocks at 0, a new brain at the middle of the screen 450 down, same configuration |
| Game.Spawn | src/game.py:152-169 | a spawned zombie carries the drawn word from the list with no progress; it starts 70 off the chosen edge at mid-height plus the drawn offset (so within 50 of mid-height), with the drawn kind in 1..4, that kind's walk clip and the level's speed; an empty list is the error |
| Game.SpawnAll | src/game.py:246-247 | one zombie per draw, in order, or the error when a spawn is due and there are no words |
| Game.Retime | src/game.py:243-245 | afterwards every zombie moves at the new speed multiplier; each keeps its record (word, progress, flags, position) and frame, so the typing and frame invariants carry over |
| Game.Escalate | src/game.py:234-247 | while the match is on the clocks advance; at the interval the level rises by one, the timer restarts, every old zombie takes the new level's speed and exactly level-many zombies are added |
| Game.LevelDelay | src/game.py:249-257 | the delay above level 0 is 2.95 - 0.3 * level up to level 7 and the 0.8 floor from level 8 on, never below 0.8 |
| Game.LevelDelayShape | src/game.py:249-257 | above level 0 the delay is 2.95 - 0.3 * level down to the 0.8 floor, reached from level 8; it never grows with the level |
| Game.Schedule | src/game.py:249-260 | when the spawn timer reaches the delay it restarts, one zombie is appended and the delay is reset (a per-level constant above level 0, a 0.05 step towards 1.5 at level 0); the delay never drops below 0.8, nor below 1.5 at level 0 |
| Game.Moved | src/game.py:264-265 | every zombie takes its own `update` step towards the brain; moving keeps each zombie's word, progress, highlight, dead flag and speed, so the typing, frame and speed invariants carry over |
| Game.Survivors | src/game.py:264-273 | the survivors are zombies of the list that do not touch the brain, every non-touching zombie survives, and with nobody touching the list is unchanged |
| Game.Caught | src/game.py:266-273 | the zombies the contact loop removes all come from the list and all touch the brain |
| Game.SurvivorsPartition | src/game.py:264-273 | survivors and caught zombies split the list: each zombie is in exactly one of them as often as it occurs, and their counts add up to the list's length |
| Game.SurvivorsAppend | src/game.py:264-273 | removal keeps the order: the survivors of a concatenation are the survivors of each part, one after the other |
| Game.Resolve | src/game.py:264-276 | the survivors are the non-touching zombies; each removed zombie costs exactly 5 health, with health clamped at 0; the match is over once health reaches 0 |
| Game.ResolveRemovesCaught | src/game.py:264-276 | the contact loop removes exactly as many zombies as touch the brain once moved, so health falls by 5 for each of them |
| Game.SurvivorsKeepInvariants | src/game.py:264-273 | movement and removal keep typed progress a prefix and frames inside their clips |
| Game.SurvivorsKeepSpeed | src/game.py:264-273 | movement and removal keep every zombie's speed multiplier |
| Game.Grow | src/game.py:234-260 | escalation then scheduling: the level rises by at most one, zombies are added exactly as due, a rise sets every zombie to the new speed, and the state stays valid |
| Game.Contact | src/game.py:262-276 | the contact phase removes zombies and charges 5 health per removal, down to 0, and keeps the state valid |
| Game.Tick | src/game.py:233-276 | one `update`: the only failure is a due spawn with no words; validity is kept; score and input are untouched; the level rises by at most one; once over, clocks and level stand still and nothing spawns; health falls by exactly 5 per zombie removed, down to 0 |
| Game.Keystroke | src/game.py:171-207 | `update_typing` changes only the zombies and the score (the input echo `current_input` is appended by the event handler); the score grows only by whole words and validity is kept |
| Game.MatchInvariants | src/game.py:233-276 | over any run of keys and frames every state is valid; score and level never decrease; the brain never heals; a finished match stays finished at its level |
| Game.StepInvariants | src/game.py:171-276 | one key or frame keeps validity and the monotone quantities |
| Screens.Launch | src/game.py:17-37 | the program starts on the menu, running, with a valid match state |
| Screens.OnEscape | src/game.py:399-419 | escape in play returns to the menu with a fresh match, in help returns to the menu, in the menu stops the program; nothing else changes, and the match stays valid |
| Screens.HandleEvent | src/game.py:394-437 | in the menu '1' starts play with a fresh match and '2' opens help; in play R after game over starts a fresh match, a letter goes to `update_typing` and is appended to the input line, Backspace clears the input line; events keep the match valid; entering or leaving play always gives a fresh match; the program stops only on quit or escape in the menu; in help only escape acts; the score grows only by typing during play |
| Screens.HandleEvents | src/game.py:394-437 | the per-frame loop over `pygame.event.get()` handles the events one after another and keeps the match configuration |
| Screens.EventsKeepValid | src/game.py:394-437 | any sequence of events keeps the match valid and its configuration, and a stopped program stays stopped |
| Screens.RunFrame | src/game.py:390-445 | one frame handles its events and then, on the play screen, ticks the match exactly once (failing exactly when the tick fails); on any other screen the handled state is the result; validity is kept |

## Left out

- Rendering (`draw`, `draw_menu`, `draw_help`, `Zombie.draw` apart from the label split, `Brain.draw`), the health-bar geometry, fonts and the display flip: these produce pixels only.
- Sound and music (`load_sound`, `play_menu_music`, `stop_menu_music`, `play_zombie_sounds`, `play_eating_sound`): side effects with no effect on the state.
- Reading `words.txt` and the sprite and background images (`load_background`, `load_zombies`): the word file arrives as its lines, and each sprite kind as its walk-clip length. Whether a sheet exists is modelled as a clip length of 0. The idle clip is loaded but never used, so it is left out.
- `constants.py` is not part of this model. The screen size is a `Config` parameter, and the colours are the three `Palette` names.
- The clock: `clock.tick(FPS) / 1000` becomes the `dt` parameter of a frame.
- Zombies.Update: the movement step needs `math.sqrt`, so it is the caller-supplied `Mover`. The contract states the position change in terms of the `Mover`, not as a unit vector times speed.
- Floating point: timers, positions, glow and delays are exact reals. Rounding of `0.05` or `0.3` steps is not modelled.
- Text.Lower, Text.Strip, Words.LoadWords: `lower`, `strip` and `isalpha` are modelled for ASCII only. Non-ASCII letters and Unicode whitespace are treated as non-letters and non-space.
- Typing.TypingKeepsInvariants: over a run of keystrokes it states that the score never decreases. It does not state that the gain is a multiple of 5; that holds per keystroke in `Typing.UpdateTyping`.
- `path_progress`, `glow_radius` and the sprite `width`/`height` are carried as data but never read by the logic. `ZOMBIE_Y_OFFSET` is a class constant read only by `Zombie.draw` to place the sprite, so it is left out with the rendering.
- The `pygame.event` plumbing: events arrive as a sequence of `Quit` and `KeyDown(key, unicode)` values, with only the key codes `run` distinguishes.

=== FILE: brains.dfy ===
/** The brain the zombies walk towards: its health and the ping-pong glow of `Brain.update`. */
module Brains {
  import opened Palette

  const MaxHealth: int := 100
  const BrainRadius: int := 28
  const GlowRadius: int := 150
  /** Glow change per second. */
  const GlowRate: real := 1.5
  const GlowHigh: real := 1.0
  const GlowLow: real := 0.4

  datatype Brain = Brain(
    x: int,
    y: int,
    health: int,
    maxHealth: int,
    radius: int,
    glowRadius: int,
    glowIntensity: real,
    glowDirection: int,
    brainX: int,
    brainY: int)

  /** `Brain.__init__`: full health, glow off and rising, drawn at its own position. */
  function New(x: int, y: int): (b: Brain)
    ensures b.health == b.maxHealth == MaxHealth
    ensures b.radius == BrainRadius
    ensures b.glowIntensity == 0.0 && b.glowDirection == 1
    ensures b.brainX == b.x == x && b.brainY == b.y == y
  {
    Brain(x, y, MaxHealth, MaxHealth, BrainRadius, GlowRadius, 0.0, 1, x, y)
  }

  predicate DirectionOk(b: Brain) {
    b.glowDirection == 1 || b.glowDirection == -1
  }

  /** `Brain.update(dt)`. */
  function Update(b: Brain, dt: real): (r: Brain)
    // whatever the elapsed time or the previous glow, the glow ends up in [0.4, 1.0]
    ensures GlowLow <= r.glowIntensity <= GlowHigh
    ensures DirectionOk(b) ==> DirectionOk(r)
    // hitting the top turns the glow down, hitting the bottom turns it up
    ensures b.glowIntensity + b.glowDirection as real * dt * GlowRate >= GlowHigh ==>
              r.glowIntensity == GlowHigh && r.glowDirection == -1
    ensures GlowLow >= b.glowIntensity + b.glowDirection as real * dt * GlowRate ==>
              r.glowIntensity == GlowLow && r.glowDirection == 1
    ensures GlowLow < b.glowIntensity + b.glowDirection as real * dt * GlowRate < GlowHigh ==>
              r.glowIntensity == b.glowIntensity + b.glowDirection as real * dt * GlowRate &&
              r.glowDirection == b.glowDirection
    // health, position and size are untouched
    ensures r == b.(glowIntensity := r.glowIntensity, glowDirection := r.glowDirection)
  {
    var glow := b.glowIntensity + b.glowDirection as real * dt * GlowRate;
    if glow >= GlowHigh then b.(glowIntensity := GlowHigh, glowDirection := -1)
    else if glow <= GlowLow then b.(glowIntensity := GlowLow, glowDirection := 1)
    else b.(glowIntensity := glow)
  }

  /** The fill colour of `draw_health_bar`. */
  function HealthColor(b: Brain): (c: Color)
    ensures c == Green <==> b.health > 50
    ensures c == Red <==> b.health <= 25
    ensures c == Green || c == Yellow || c == Red
  {
    if b.health > 50 then Green else if b.health > 25 then Yellow else Red
  }

  /** The tiers are ordered: taking damage never makes the bar look healthier. */
  lemma HealthColorMonotone(a: Brain, b: Brain)
    requires a.health <= b.health
    ensures HealthColor(b) == Red ==> HealthColor(a) == Red
    ensures HealthColor(a) == Green ==> HealthColor(b) == Green
  {
  }

  /** `Brain.update` applied once per element of `dts`. */
  function UpdateAll(b: Brain, dts: seq<real>): Brain
    decreases |dts|
  {
    if |dts| == 0 then b else UpdateAll(Update(b, dts[0]), dts[1..])
  }

  /** From a fresh brain, any number of ticks keeps the direction at -1 or +1, the health and
      position fixed, and, after at least one tick, the glow within [0.4, 1.0]. */
  lemma {:induction false} GlowStaysBounded(b: Brain, dts: seq<real>)
    requires DirectionOk(b)
    ensures DirectionOk(UpdateAll(b, dts))
    ensures UpdateAll(b, dts).health == b.health
    ensures UpdateAll(b, dts).brainX == b.brainX && UpdateAll(b, dts).brainY == b.brainY
    ensures UpdateAll(b, dts).radius == b.radius
    ensures |dts| > 0 ==> GlowLow <= UpdateAll(b, dts).glowIntensity <= GlowHigh
    decreases |dts|
  {
    if |dts| > 0 {
      GlowStaysBounded(Update(b, dts[0]), dts[1..]);
    }
  }
}

=== FILE: difficulty.dfy ===
/** The difficulty tiers: the escalation interval, the display label and its colour. */
module Difficulty {
  import opened Palette

  datatype Tag = Easy | Medium | Hard

  /** `get_difficulty_interval`: seconds the current level lasts before the next rise. */
  function Interval(level: int): (r: real)
    ensures r == 30.0 <==> level <= 3
    ensures r == 60.0 <==> level > 3
  {
    if level <= 3 then 30.0 else if level <= 6 then 60.0 else 60.0
  }

  /** `get_difficulty_tag` */
  function TagOf(level: int): (t: Tag)
    ensures t == Easy <==> level <= 3
    ensures t == Medium <==> 3 < level <= 6
    ensures t == Hard <==> level > 6
  {
    if level <= 3 then Easy else if level <= 6 then Medium else Hard
  }

  /** `get_difficulty_color` */
  function ColorOf(level: int): (c: Color)
    ensures c == Green <==> level <= 3
    ensures c == Yellow <==> 3 < level <= 6
    ensures c == Red <==> level > 6
  {
    if level <= 3 then Green else if level <= 6 then Yellow else Red
  }

  /** Label, colour and interval describe the same three tiers: the easy tier (levels up to 3,
      including the starting level 0) is the only one with the 30-second interval, and
      later tiers never return to an easier label. */
  lemma TiersAgree(level: int, later: int)
    requires level <= later
    ensures TagOf(level) == Easy <==> ColorOf(level) == Green
    ensures TagOf(level) == Medium <==> ColorOf(level) == Yellow
    ensures TagOf(level) == Hard <==> ColorOf(level) == Red
    ensures Interval(level) == 30.0 <==> TagOf(level) == Easy
    ensures Interval(level) != 30.0 ==> Interval(level) == 60.0
    ensures Interval(level) <= Interval(later)
    ensures TagOf(later) == Easy ==> TagOf(level) == Easy
    ensures TagOf(level) == Hard ==> TagOf(later) == Hard
  {
  }
}

=== FILE: game.dfy ===
/** The match controller of `TypingGame`: match state, `reset_game`, `spawn_zombie`, the
    keystroke entry point and the per-tick `update` (difficulty escalation, spawn schedule,
    brain pulse, zombie movement and contact with the brain). */
module Game {
  import opened Results
  import Z = Zombies
  import B = Brains
  import T = Typing
  import D = Difficulty

  /** Vertical position of the brain. */
  const BrainY: int := 450
  /** How far outside the screen a zombie appears. */
  const SpawnMargin: int := 70
  /** Largest vertical offset from mid-screen of a new zombie. */
  const SpawnJitter: int := 50
  /** Number of zombie sprite kinds, numbered from 1. */
  const ZombieKinds: int := 4
  const InitialSpawnDelay: real := 3.0
  /** Floor of the spawn delay while the difficulty level is 0 (`min_spawn`). */
  const MinSpawn: real := 1.5
  /** Floor of the spawn delay once the difficulty has risen. */
  const SpawnFloor: real := 0.8
  const SpawnStep: real := 0.05
  /** Spawn delay reduction per difficulty level. */
  const LevelStep: real := 0.3
  /** Speed multiplier increase per difficulty level. */
  const SpeedStep: real := 0.5
  /** Health a zombie takes from the brain on contact. */
  const ContactDamage: int := 5
  /** Added to the brain radius to give the contact distance. */
  const ContactPadding: int := 30

  /** What a match is played with: the screen size, the loaded word list and, for each zombie
      kind that has sprites, the number of frames in its walk clip. */
  datatype Config = Config(screenWidth: int, screenHeight: int, words: seq<string>, walkFrames: map<int, nat>)

  datatype Game = Game(
    config: Config,
    score: int,
    zombies: seq<Z.Zombie>,
    currentInput: string,
    spawnTimer: real,
    spawnDelay: real,
    difficultyTimer: real,
    difficultyLevel: nat,
    gameTime: real,
    gameOver: bool,
    brain: B.Brain)

  /** The random draws of one `spawn_zombie` call: the side, the `randint(-50, 50)` offset,
      the position `random.choice` picks in the word list, and the `randint(1, 4)` kind. */
  datatype SpawnChoice = SpawnChoice(fromRight: bool, yOffset: int, wordIndex: nat, zombieType: int)

  /** `random.choice` on an empty word list raises `IndexError`, which ends the program. */
  datatype GameError = EmptyWordList

  function Max(a: real, b: real): real {
    if a >= b then a else b
  }

  function MaxInt(a: int, b: int): int {
    if a >= b then a else b
  }

  /** What holds of every match state the game reaches. */
  predicate Valid(g: Game) {
    && g.brain.maxHealth == B.MaxHealth
    && 0 <= g.brain.health <= B.MaxHealth
    && (g.gameOver <==> g.brain.health == 0)
    && B.DirectionOk(g.brain)
    && g.spawnDelay >= SpawnFloor
    && (g.difficultyLevel == 0 ==> g.spawnDelay >= MinSpawn)
    && g.score >= 0
    && T.Prefixed(g.zombies)
    && Z.FramesOk(g.zombies)
  }

  /** The match state `__init__` builds and `reset_game` restores; only the configuration
      survives a reset. */
  function Start(cfg: Config): (g: Game)
    ensures Valid(g)
    ensures g.config == cfg
    ensures g.brain.health == B.MaxHealth && !g.gameOver
    ensures g.score == 0 && g.zombies == [] && g.currentInput == ""
    ensures g.difficultyLevel == 0 && g.spawnDelay == InitialSpawnDelay
    // all three clocks restart, and a new brain stands at the middle of the screen, 450 down
    ensures g.spawnTimer == 0.0 && g.difficultyTimer == 0.0 && g.gameTime == 0.0
    ensures g.brain == B.New(cfg.screenWidth / 2, BrainY)
  {
    Game(cfg, 0, [], "", 0.0, InitialSpawnDelay, 0.0, 0, 0.0, false, B.New(cfg.screenWidth / 2, BrainY))
  }

  /** `reset_game` */
  function Reset(g: Game): (r: Game)
    ensures Valid(r)
    ensures r.config == g.config
    ensures r == Start(g.config)
  {
    Start(g.config)
  }

  // ---------------------------------------------------------------- spawning

  /** The ranges the random draws of `spawn_zombie` come from. */
  predicate ValidChoice(cfg: Config, ch: SpawnChoice) {
    && -SpawnJitter <= ch.yOffset <= SpawnJitter
    && 1 <= ch.zombieType <= ZombieKinds
    && (|cfg.words| > 0 ==> ch.wordIndex < |cfg.words|)
  }

  predicate ValidChoices(cfg: Config, chs: seq<SpawnChoice>) {
    forall i :: 0 <= i < |chs| ==> ValidChoice(cfg, chs[i])
  }

  /** The speed multiplier of every zombie at difficulty `level`. */
  function Multiplier(level: nat): real {
    1.0 + level as real * SpeedStep
  }

  /** `self.zombie_images.get(kind, {})`, reduced to the walk clip length. */
  function SpriteFrames(cfg: Config, kind: int): nat {
    if kind in cfg.walkFrames then cfg.walkFrames[kind] else 0
  }

  /** `spawn_zombie` at difficulty `level`. */
  function Spawn(cfg: Config, level: nat, ch: SpawnChoice): (r: Result<Z.Zombie, GameError>)
    requires ValidChoice(cfg, ch)
    ensures r.Err? <==> |cfg.words| == 0
    ensures r.Ok? ==>
              var z := r.value;
              // a word from the list, nothing typed, not highlighted, not dead
              && z.data.word in cfg.words
              && z.data.typedChars == "" && !z.data.isHighlighted && !z.data.isDead
              // just off the left or right edge, within 50 of mid-screen height
              && z.data.fromRight == ch.fromRight
              && z.data.x == (if ch.fromRight then (cfg.screenWidth + SpawnMargin) as real else (-SpawnMargin) as real)
              && (cfg.screenHeight / 2 - SpawnJitter) as real <= z.data.y <= (cfg.screenHeight / 2 + SpawnJitter) as real
              && 1 <= z.data.zombieType <= ZombieKinds
              // the drawn word, offset and kind, with that kind's walk clip
              && z.data.word == cfg.words[ch.wordIndex]
              && z.data.y == (cfg.screenHeight / 2 + ch.yOffset) as real
              && z.data.zombieType == ch.zombieType
              && z.walkFrames == SpriteFrames(cfg, ch.zombieType)
              // at the level's speed, animation at its start
              && z.speedMultiplier == Multiplier(level)
              && z.currentFrame == 0 && z.frameTimer == 0.0
              && Z.FrameOk(z)
  {
    if |cfg.words| == 0 then Err(EmptyWordList)
    else
      var x := if ch.fromRight then cfg.screenWidth + SpawnMargin else -SpawnMargin;
      var y := cfg.screenHeight / 2 + ch.yOffset;
      var data := Z.NewData(x as real, y as real, cfg.words[ch.wordIndex], "", ch.zombieType, 0.0)
        .(fromRight := ch.fromRight);
      var z := Z.New(data, SpriteFrames(cfg, ch.zombieType));
      Ok(z.(speedMultiplier := Multiplier(level)))
  }

  /** `spawn_zombie` called once per element of `chs`. */
  function SpawnAll(cfg: Config, level: nat, chs: seq<SpawnChoice>): (r: Result<seq<Z.Zombie>, GameError>)
    requires ValidChoices(cfg, chs)
    ensures r.Err? <==> |chs| > 0 && |cfg.words| == 0
    ensures r.Ok? ==> |r.value| == |chs|
    ensures r.Ok? ==> forall i :: 0 <= i < |chs| ==> Spawn(cfg, level, chs[i]) == Ok(r.value[i])
  {
    if |chs| == 0 then Ok([])
    else if |cfg.words| == 0 then Err(EmptyWordList)
    else Ok(seq(|chs|, i requires 0 <= i < |chs| => Spawn(cfg, level, chs[i]).value))
  }

  // ---------------------------------------------------------------- the tick

  /** The difficulty timer reaches the current level's interval this tick. */
  predicate Rises(g: Game, dt: real) {
    !g.gameOver && g.difficultyTimer + dt >= D.Interval(g.difficultyLevel)
  }

  /** Zombies the difficulty rise spawns: as many as the new level. */
  function BurstSize(g: Game, dt: real): nat {
    if Rises(g, dt) then g.difficultyLevel + 1 else 0
  }

  /** The spawn timer reaches the spawn delay this tick. */
  predicate Fires(g: Game, dt: real) {
    !g.gameOver && g.spawnTimer + dt >= g.spawnDelay
  }

  /** How many `spawn_zombie` calls, and so how many random draws, this tick makes. */
  function SpawnsDue(g: Game, dt: real): nat {
    BurstSize(g, dt) + if Fires(g, dt) then 1 else 0
  }

  /** Every zombie set to speed multiplier `m`. */
  function Retime(zs: seq<Z.Zombie>, m: real): (r: seq<Z.Zombie>)
    ensures |r| == |zs|
    ensures forall i :: 0 <= i < |zs| ==> r[i] == zs[i].(speedMultiplier := m)
    // every zombie moves at the new speed; words, progress, flags and animation are kept
    ensures AllAt(r, m)
    ensures forall i :: 0 <= i < |zs| ==> r[i].data == zs[i].data && r[i].currentFrame == zs[i].currentFrame
    ensures T.Prefixed(zs) ==> T.Prefixed(r)
    ensures Z.FramesOk(zs) ==> Z.FramesOk(r)
  {
    seq(|zs|, i requires 0 <= i < |zs| => zs[i].(speedMultiplier := m))
  }

  /** The difficulty part of `update`: the clocks advance, and when the difficulty timer
      reaches the interval the level rises by one, every zombie gets the new level's speed
      and as many new zombies as the new level are spawned. */
  function Escalate(g: Game, dt: real, burst: seq<SpawnChoice>): (r: Result<Game, GameError>)
    requires |burst| == BurstSize(g, dt) && ValidChoices(g.config, burst)
    ensures g.gameOver ==> r == Ok(g)
    ensures r.Err? <==> Rises(g, dt) && |g.config.words| == 0
    ensures r.Ok? ==>
              r.value == g.(zombies := r.value.zombies, difficultyTimer := r.value.difficultyTimer,
                            difficultyLevel := r.value.difficultyLevel, gameTime := r.value.gameTime)
    ensures r.Ok? && !g.gameOver ==> r.value.gameTime == g.gameTime + dt
    ensures r.Ok? ==> r.value.difficultyLevel == g.difficultyLevel + (if Rises(g, dt) then 1 else 0)
    ensures r.Ok? && !g.gameOver && !Rises(g, dt) ==>
              r.value.difficultyTimer == g.difficultyTimer + dt && r.value.zombies == g.zombies
    ensures r.Ok? && Rises(g, dt) ==>
              var level := r.value.difficultyLevel;
              var n := |g.zombies|;
              && r.value.difficultyTimer == 0.0
              && |r.value.zombies| == n + level
              && (forall i :: 0 <= i < n ==>
                    r.value.zombies[i] == g.zombies[i].(speedMultiplier := Multiplier(level)))
              && (forall i :: n <= i < n + level ==>
                    Spawn(g.config, level, burst[i - n]) == Ok(r.value.zombies[i]))
              && (forall i :: 0 <= i < |r.value.zombies| ==>
                    r.value.zombies[i].speedMultiplier == Multiplier(level))
    ensures r.Ok? && T.Prefixed(g.zombies) ==> T.Prefixed(r.value.zombies)
    ensures r.Ok? && Z.FramesOk(g.zombies) ==> Z.FramesOk(r.value.zombies)
  {
    if g.gameOver then Ok(g)
    else
      var g1 := g.(gameTime := g.gameTime + dt, difficultyTimer := g.difficultyTimer + dt);
      if g1.difficultyTimer >= D.Interval(g.difficultyLevel) then
        var level := g.difficultyLevel + 1;
        var spawned :- SpawnAll(g.config, level, burst);
        Ok(g1.(difficultyTimer := 0.0, difficultyLevel := level,
               zombies := Retime(g.zombies, Multiplier(level)) + spawned))
      else Ok(g1)
  }

  /** The spawn delay once the difficulty is above 0: fixed by the level alone. */
  function LevelDelay(level: nat): (r: real)
    ensures r >= SpawnFloor
    ensures level <= 7 ==> r == 2.95 - level as real * LevelStep
    ensures level >= 8 ==> r == SpawnFloor
  {
    Max(SpawnFloor, Max(SpawnFloor, 3.0 - level as real * LevelStep) - SpawnStep)
  }

  /** The level delay falls by 0.3 a level from 2.65 and bottoms out at 0.8 from level 8 on;
      it never depends on how many spawns happened before. */
  lemma LevelDelayShape(level: nat, later: nat)
    requires 1 <= level <= later
    ensures SpawnFloor <= LevelDelay(later) <= LevelDelay(level) <= 2.65
    ensures level <= 7 ==> LevelDelay(level) == 2.95 - level as real * LevelStep
    ensures level >= 8 ==> LevelDelay(level) == SpawnFloor
  {
  }

  /** The spawn part of `update`: when the spawn timer reaches the delay, the timer restarts,
      the delay is recomputed and one zombie is spawned. */
  function Schedule(g: Game, dt: real, next: seq<SpawnChoice>): (r: Result<Game, GameError>)
    requires |next| == (if Fires(g, dt) then 1 else 0) && ValidChoices(g.config, next)
    ensures g.gameOver ==> r == Ok(g)
    ensures r.Err? <==> Fires(g, dt) && |g.config.words| == 0
    ensures r.Ok? ==>
              r.value == g.(zombies := r.value.zombies, spawnTimer := r.value.spawnTimer,
                            spawnDelay := r.value.spawnDelay)
    ensures r.Ok? && !g.gameOver && !Fires(g, dt) ==>
              && r.value.spawnTimer == g.spawnTimer + dt
              && r.value.spawnDelay == g.spawnDelay
              && r.value.zombies == g.zombies
    ensures r.Ok? && Fires(g, dt) ==>
              && r.value.spawnTimer == 0.0
              && |r.value.zombies| == |g.zombies| + 1
              && r.value.zombies[..|g.zombies|] == g.zombies
              && Spawn(g.config, g.difficultyLevel, next[0]) == Ok(r.value.zombies[|g.zombies|])
              && (g.difficultyLevel > 0 ==> r.value.spawnDelay == LevelDelay(g.difficultyLevel))
              && (g.difficultyLevel == 0 ==> r.value.spawnDelay == Max(MinSpawn, g.spawnDelay - SpawnStep))
    // the floors: never below 0.8, never below 1.5 before the first rise
    ensures r.Ok? && g.spawnDelay >= SpawnFloor ==> r.value.spawnDelay >= SpawnFloor
    ensures r.Ok? && g.difficultyLevel == 0 && g.spawnDelay >= MinSpawn ==> r.value.spawnDelay >= MinSpawn
    ensures r.Ok? && T.Prefixed(g.zombies) ==> T.Prefixed(r.value.zombies)
    ensures r.Ok? && Z.FramesOk(g.zombies) ==> Z.FramesOk(r.value.zombies)
  {
    if g.gameOver then Ok(g)
    else
      var base := if g.difficultyLevel > 0 then Max(SpawnFloor, 3.0 - g.difficultyLevel as real * LevelStep) else 3.0;
      var timer := g.spawnTimer + dt;
      if timer >= g.spawnDelay then
        var delay :=
          if g.difficultyLevel > 0 then Max(SpawnFloor, base - SpawnStep)
          else Max(MinSpawn, g.spawnDelay - SpawnStep);
        var z :- Spawn(g.config, g.difficultyLevel, next[0]);
        Ok(g.(spawnTimer := 0.0, spawnDelay := delay, zombies := g.zombies + [z]))
      else Ok(g.(spawnTimer := timer))
  }

  // ---------------------------------------------------------------- contact

  /** Where the zombies head, and the distance under which they touch the brain. */
  datatype Spot = Spot(x: real, y: real, reach: int)

  function SpotOf(b: B.Brain): Spot {
    Spot(b.brainX as real, b.brainY as real, b.radius + ContactPadding)
  }

  /** `math.dist(zombie, brain) < brain_radius + 30`, squared on both sides. */
  predicate Touches(z: Z.Zombie, s: Spot) {
    s.reach > 0 && Z.SqDist(z.data.x, z.data.y, s.x, s.y) < (s.reach * s.reach) as real
  }

  /** Every zombie after its `update` towards the spot. */
  function Moved(zs: seq<Z.Zombie>, s: Spot, dt: real, mover: Z.Mover): (r: seq<Z.Zombie>)
    ensures |r| == |zs|
    ensures forall i :: 0 <= i < |zs| ==> r[i] == Z.Update(zs[i], dt, s.x, s.y, mover)
    // moving changes neither a zombie's word, progress, flags nor speed
    ensures forall i :: 0 <= i < |zs| ==>
              && r[i].data.word == zs[i].data.word
              && r[i].data.typedChars == zs[i].data.typedChars
              && r[i].data.isHighlighted == zs[i].data.isHighlighted
              && r[i].data.isDead == zs[i].data.isDead
              && r[i].speedMultiplier == zs[i].speedMultiplier
    ensures T.Prefixed(zs) ==> T.Prefixed(r)
    ensures Z.FramesOk(zs) ==> Z.FramesOk(r)
    ensures forall m :: AllAt(zs, m) ==> AllAt(r, m)
  {
    seq(|zs|, i requires 0 <= i < |zs| => Z.Update(zs[i], dt, s.x, s.y, mover))
  }

  /** In order, the zombies that do not touch the spot. */
  function Survivors(ms: seq<Z.Zombie>, s: Spot): (r: seq<Z.Zombie>)
    ensures |r| <= |ms|
    ensures forall i :: 0 <= i < |r| ==> r[i] in ms && !Touches(r[i], s)
    ensures forall i :: 0 <= i < |ms| && !Touches(ms[i], s) ==> ms[i] in r
    ensures (forall i :: 0 <= i < |ms| ==> !Touches(ms[i], s)) ==> r == ms
    decreases |ms|
  {
    if |ms| == 0 then []
    else if Touches(ms[0], s) then Survivors(ms[1..], s)
    else [ms[0]] + Survivors(ms[1..], s)
  }

  /** In order, the zombies that touch the spot: what the contact loop removes. */
  function Caught(ms: seq<Z.Zombie>, s: Spot): (r: seq<Z.Zombie>)
    ensures forall i :: 0 <= i < |r| ==> r[i] in ms && Touches(r[i], s)
    decreases |ms|
  {
    if |ms| == 0 then []
    else if Touches(ms[0], s) then [ms[0]] + Caught(ms[1..], s)
    else Caught(ms[1..], s)
  }

  /** The survivors and the caught zombies split the list: every zombie lands in exactly
      one of the two, as often as it occurs. */
  lemma {:induction false} SurvivorsPartition(ms: seq<Z.Zombie>, s: Spot)
    ensures multiset(Survivors(ms, s)) + multiset(Caught(ms, s)) == multiset(ms)
    ensures |Survivors(ms, s)| + |Caught(ms, s)| == |ms|
    decreases |ms|
  {
    if |ms| > 0 {
      SurvivorsPartition(ms[1..], s);
      assert ms == [ms[0]] + ms[1..];
    }
  }

  /** Filtering keeps the order: the survivors of a concatenation are the survivors of the
      first part followed by those of the second. */
  lemma {:induction false} SurvivorsAppend(a: seq<Z.Zombie>, b: seq<Z.Zombie>, s: Spot)
    ensures Survivors(a + b, s) == Survivors(a, s) + Survivors(b, s)
    decreases |a|
  {
    if |a| == 0 {
      assert a + b == b;
    } else {
      assert (a + b)[1..] == a[1..] + b;
      SurvivorsAppend(a[1..], b, s);
    }
  }

  /** Brain, game-over flag and zombie list after the contact loop. */
  datatype Aftermath = Aftermath(brain: B.Brain, gameOver: bool, zombies: seq<Z.Zombie>)

  /** The contact loop of `update`, over a snapshot of the list: each zombie moves, and one
      that touches the brain is removed and takes 5 health; health at or below 0 is set to
      0 and ends the match. */
  function Resolve(b: B.Brain, over: bool, zs: seq<Z.Zombie>, dt: real, mover: Z.Mover): (r: Aftermath)
    // the survivors are exactly the moved zombies not touching the brain, in order
    ensures r.zombies == Survivors(Moved(zs, SpotOf(b), dt, mover), SpotOf(b))
    // every removed zombie costs exactly 5 health, and health stops at 0
    ensures r.brain == b.(health := r.brain.health)
    ensures b.health >= 0 ==> r.brain.health == MaxInt(0, b.health - ContactDamage * (|zs| - |r.zombies|))
    ensures r.gameOver == (over || (|r.zombies| < |zs| && b.health - ContactDamage * (|zs| - |r.zombies|) <= 0))
    decreases |zs|
  {
    if |zs| == 0 then Aftermath(b, over, [])
    else
      var s := SpotOf(b);
      var z := Z.Update(zs[0], dt, s.x, s.y, mover);
      assert Moved(zs, s, dt, mover)[1..] == Moved(zs[1..], s, dt, mover);
      if Touches(z, s) then
        var h := b.health - ContactDamage;
        var b1 := if h <= 0 then b.(health := 0) else b.(health := h);
        Resolve(b1, over || h <= 0, zs[1..], dt, mover)
      else
        var rest := Resolve(b, over, zs[1..], dt, mover);
        rest.(zombies := [z] + rest.zombies)
  }

  /** The contact loop removes exactly as many zombies as touch the brain once moved, so
      (by `Resolve`) the health it takes is 5 for each of them. */
  lemma ResolveRemovesCaught(b: B.Brain, over: bool, zs: seq<Z.Zombie>, dt: real, mover: Z.Mover)
    ensures |zs| - |Resolve(b, over, zs, dt, mover).zombies|
              == |Caught(Moved(zs, SpotOf(b), dt, mover), SpotOf(b))|
  {
    SurvivorsPartition(Moved(zs, SpotOf(b), dt, mover), SpotOf(b));
  }

  lemma SurvivorsKeepInvariants(zs: seq<Z.Zombie>, s: Spot, dt: real, mover: Z.Mover)
    ensures var r := Survivors(Moved(zs, s, dt, mover), s);
            T.Prefixed(zs) && Z.FramesOk(zs) ==> T.Prefixed(r) && Z.FramesOk(r)
  {
    var ms := Moved(zs, s, dt, mover);
    if T.Prefixed(zs) && Z.FramesOk(zs) {
      assert T.Prefixed(ms) && Z.FramesOk(ms);
    }
  }

  /** Every zombie of the list moves at speed multiplier `m`. */
  predicate AllAt(zs: seq<Z.Zombie>, m: real) {
    forall i :: 0 <= i < |zs| ==> zs[i].speedMultiplier == m
  }

  /** The part of `update` that runs only while the match is on: escalation, then the
      spawn schedule. */
  function Grow(g: Game, dt: real, chs: seq<SpawnChoice>): (r: Result<Game, GameError>)
    requires |chs| == SpawnsDue(g, dt) && ValidChoices(g.config, chs)
    ensures g.gameOver ==> r == Ok(g)
    ensures r.Err? <==> |g.config.words| == 0 && SpawnsDue(g, dt) > 0
    ensures r.Ok? ==>
              r.value == g.(zombies := r.value.zombies, difficultyTimer := r.value.difficultyTimer,
                            difficultyLevel := r.value.difficultyLevel, gameTime := r.value.gameTime,
                            spawnTimer := r.value.spawnTimer, spawnDelay := r.value.spawnDelay)
    ensures r.Ok? ==> r.value.difficultyLevel == g.difficultyLevel + (if Rises(g, dt) then 1 else 0)
    ensures r.Ok? ==> |r.value.zombies| == |g.zombies| + SpawnsDue(g, dt)
    ensures r.Ok? && Rises(g, dt) ==> AllAt(r.value.zombies, Multiplier(r.value.difficultyLevel))
    ensures r.Ok? && Fires(g, dt) && r.value.difficultyLevel > 0 ==>
              r.value.spawnDelay == LevelDelay(r.value.difficultyLevel)
    ensures r.Ok? && Valid(g) ==> Valid(r.value)
  {
    var n := BurstSize(g, dt);
    var g1 :- Escalate(g, dt, chs[..n]);
    var g2 :- Schedule(g1, dt, chs[n..]);
    Ok(g2)
  }

  /** The part of `update` that runs on every tick: the brain pulse and the contact loop. */
  function Contact(g: Game, dt: real, mover: Z.Mover): (r: Game)
    ensures r == g.(brain := r.brain, gameOver := r.gameOver, zombies := r.zombies)
    ensures |r.zombies| <= |g.zombies|
    ensures g.brain.health >= 0 ==>
              r.brain.health == MaxInt(0, g.brain.health - ContactDamage * (|g.zombies| - |r.zombies|))
    ensures forall m :: AllAt(g.zombies, m) ==> AllAt(r.zombies, m)
    ensures Valid(g) ==> Valid(r)
  {
    var brain := B.Update(g.brain, dt);
    var after := Resolve(brain, g.gameOver, g.zombies, dt, mover);
    SurvivorsKeepInvariants(g.zombies, SpotOf(brain), dt, mover);
    SurvivorsKeepSpeed(g.zombies, SpotOf(brain), dt, mover);
    g.(brain := after.brain, gameOver := after.gameOver, zombies := after.zombies)
  }

  lemma SurvivorsKeepSpeed(zs: seq<Z.Zombie>, s: Spot, dt: real, mover: Z.Mover)
    ensures forall m :: AllAt(zs, m) ==> AllAt(Survivors(Moved(zs, s, dt, mover), s), m)
  {
    var ms := Moved(zs, s, dt, mover);
    forall m | AllAt(zs, m)
      ensures AllAt(Survivors(ms, s), m)
    {
      assert AllAt(ms, m);
    }
  }

  /** `update(dt)`: escalation and spawning while the match is on, then the brain pulse and
      the contact loop. The random draws of this tick's spawns come in `chs`, burst first. */
  function Tick(g: Game, dt: real, chs: seq<SpawnChoice>, mover: Z.Mover): (r: Result<Game, GameError>)
    requires |chs| == SpawnsDue(g, dt) && ValidChoices(g.config, chs)
    // the only failure: a spawn is due and there are no words
    ensures r.Err? <==> |g.config.words| == 0 && SpawnsDue(g, dt) > 0
    ensures r.Ok? && Valid(g) ==> Valid(r.value)
    ensures r.Ok? ==>
              && r.value.config == g.config
              && r.value.score == g.score
              && r.value.currentInput == g.currentInput
    // the level rises by at most one, and only when its interval has elapsed
    ensures r.Ok? ==> r.value.difficultyLevel == g.difficultyLevel + (if Rises(g, dt) then 1 else 0)
    ensures r.Ok? && Rises(g, dt) ==> AllAt(r.value.zombies, Multiplier(r.value.difficultyLevel))
    ensures r.Ok? && Fires(g, dt) && r.value.difficultyLevel > 0 ==>
              r.value.spawnDelay == LevelDelay(r.value.difficultyLevel)
    // once the match is over, the clocks and the level stand still and nothing spawns
    ensures r.Ok? && g.gameOver ==>
              && r.value.difficultyLevel == g.difficultyLevel
              && r.value.difficultyTimer == g.difficultyTimer
              && r.value.spawnTimer == g.spawnTimer
              && r.value.spawnDelay == g.spawnDelay
              && r.value.gameTime == g.gameTime
              && |r.value.zombies| <= |g.zombies|
    // each zombie that reaches the brain costs exactly 5 health, down to 0
    ensures r.Ok? ==> |r.value.zombies| <= |g.zombies| + SpawnsDue(g, dt)
    ensures r.Ok? && g.brain.health >= 0 ==>
              r.value.brain.health ==
                MaxInt(0, g.brain.health - ContactDamage * (|g.zombies| + SpawnsDue(g, dt) - |r.value.zombies|))
  {
    var g1 :- Grow(g, dt, chs);
    Ok(Contact(g1, dt, mover))
  }

  /** A key press during play: `update_typing`. */
  function Keystroke(g: Game, key: string): (r: Game)
    ensures r == g.(zombies := r.zombies, score := r.score)
    ensures T.WholeWords(g.score, r.score)
    ensures |r.zombies| <= |g.zombies|
    ensures Valid(g) ==> Valid(r)
  {
    var b := T.UpdateTyping(T.Board(g.zombies, g.score), key);
    g.(zombies := b.zombies, score := b.score)
  }

  // ---------------------------------------------------------------- a whole match

  /** One input to the match: a typed key, or a frame's elapsed time with the random draws
      of that frame's spawns. */
  datatype Step = Press(key: string) | Frame(dt: real, chs: seq<SpawnChoice>)

  /** The draws of a frame step are as many as its spawns, from the right ranges. */
  predicate Legal(g: Game, st: Step) {
    st.Press? || (|st.chs| == SpawnsDue(g, st.dt) && ValidChoices(g.config, st.chs))
  }

  function Apply(g: Game, st: Step, mover: Z.Mover): Result<Game, GameError>
    requires Legal(g, st)
  {
    match st
    case Press(key) => Ok(Keystroke(g, key))
    case Frame(dt, chs) => Tick(g, dt, chs, mover)
  }

  /** Every step is legal in the state it is applied to. */
  predicate LegalRun(g: Game, steps: seq<Step>, mover: Z.Mover)
    decreases |steps|
  {
    |steps| == 0 ||
    (Legal(g, steps[0]) &&
     match Apply(g, steps[0], mover)
     case Ok(g1) => LegalRun(g1, steps[1..], mover)
     case Err(_) => true)
  }

  /** The steps applied in order; the first failure ends the run. */
  function Play(g: Game, steps: seq<Step>, mover: Z.Mover): Result<Game, GameError>
    requires LegalRun(g, steps, mover)
    decreases |steps|
  {
    if |steps| == 0 then Ok(g)
    else
      var g1 :- Apply(g, steps[0], mover);
      Play(g1, steps[1..], mover)
  }

  /** Within a match: every state reached is valid (health in [0, 100], game over exactly at
      0 health, spawn delay floors), the score and the difficulty level never decrease, the
      brain never heals, and once the match is over it stays over at the same level. */
  lemma {:induction false} MatchInvariants(g: Game, steps: seq<Step>, mover: Z.Mover)
    requires Valid(g) && LegalRun(g, steps, mover)
    ensures Play(g, steps, mover).Ok? ==>
              var r := Play(g, steps, mover).value;
              && Valid(r)
              && r.config == g.config
              && r.score >= g.score
              && r.difficultyLevel >= g.difficultyLevel
              && r.brain.health <= g.brain.health
              && (g.gameOver ==> r.gameOver && r.difficultyLevel == g.difficultyLevel)
    decreases |steps|
  {
    if |steps| > 0 {
      var a := Apply(g, steps[0], mover);
      if a.Ok? {
        StepInvariants(g, steps[0], mover);
        MatchInvariants(a.value, steps[1..], mover);
      }
    }
  }

  lemma StepInvariants(g: Game, st: Step, mover: Z.Mover)
    requires Valid(g) && Legal(g, st)
    ensures Apply(g, st, mover).Ok? ==>
              var r := Apply(g, st, mover).value;
              && Valid(r)
              && r.config == g.config
              && r.score >= g.score
              && r.difficultyLevel >= g.difficultyLevel
              && r.brain.health <= g.brain.health
              && (g.gameOver ==> r.gameOver && r.difficultyLevel == g.difficultyLevel)
  {
  }
}

=== FILE: lists.dfy ===
/** Python list idioms over sequences: the first element with a property,
    and `list.remove` of one element known by position. */
module Lists {
  import opened Results

  /** The position of the first element satisfying `p`, if any. */
  function First<T>(s: seq<T>, p: T -> bool): (r: Option<nat>)
    ensures r.Some? ==> r.value < |s| && p(s[r.value])
    ensures r.Some? ==> forall i :: 0 <= i < r.value ==> !p(s[i])
    ensures r.None? <==> forall i :: 0 <= i < |s| ==> !p(s[i])
    decreases |s|
  {
    if |s| == 0 then None
    else if p(s[0]) then Some(0)
    else match First(s[1..], p)
      case None => None
      case Some(k) => Some(k + 1)
  }

  /** `list.remove(x)` where `x` is the object stored at position `k`: objects are compared
      by identity, so exactly that position goes and the others keep their order. */
  function RemoveAt<T>(s: seq<T>, k: nat): (r: seq<T>)
    requires k < |s|
    ensures |r| == |s| - 1
    ensures forall i :: 0 <= i < k ==> r[i] == s[i]
    ensures forall i :: k <= i < |r| ==> r[i] == s[i + 1]
  {
    s[..k] + s[k + 1..]
  }
}

=== FILE: palette.dfy ===
/** The colours that carry meaning in the game's interface: the three tiers used for
    the brain's health bar and for the difficulty label. */
module Palette {

  datatype Color = Green | Yellow | Red
}

=== FILE: results.dfy ===
/** Failure-compatible wrappers shared by the whole model. */
module Results {

  /** An optional value: Python's `None` or a present value. */
  datatype Option<+T> = None | Some(value: T)

  /** The outcome of an operation that the game can abort with an exception. */
  datatype Result<+T, +E> = Ok(value: T) | Err(error: E) {

    predicate IsFailure() {
      Err?
    }

    function PropagateFailure<U>(): Result<U, E>
      requires Err?
    {
      Err(error)
    }

    function Extract(): T
      requires Ok?
    {
      value
    }
  }
}

=== FILE: scenarios.dfy ===
/** Worked keystroke sequences: the shared-first-letter case, a one-letter word behind a
    longer one, and a wrong letter mid-word. */
module Scenarios {
  import opened Results
  import opened Zombies
  import opened Typing
  import Lists

  function Walker(word: string): Zombie {
    New(NewData(0.0, 0.0, word, "", 1, 0.0), 0)
  }

  /** Words "cat" and "car" on screen. 'c' highlights both but gives progress to "cat" only;
      'a' extends "cat"; 't' completes it for 15 points, leaving "car" unhighlighted and with
      no progress: the shared prefix does not carry over to the other zombie. */
  lemma SharedFirstLetter()
    ensures var b0 := Board([Walker("cat"), Walker("car")], 0);
            var b1 := UpdateTyping(b0, "c");
            var b2 := UpdateTyping(b1, "a");
            var b3 := UpdateTyping(b2, "t");
            && b1.zombies[0].data.typedChars == "c" && b1.zombies[0].data.isHighlighted
            && b1.zombies[1].data.typedChars == "" && b1.zombies[1].data.isHighlighted
            && b2.zombies[0].data.typedChars == "ca" && b2.zombies[1].data.typedChars == ""
            && b3.score == 15
            && b3.zombies == [Mark(Walker("car"), "", false)]
  {
    CatCarFirst();
    CatCarSecond();
    CatCarThird();
  }

  lemma CatCarFirst()
    ensures UpdateTyping(Board([Walker("cat"), Walker("car")], 0), "c")
            == Board([Mark(Walker("cat"), "c", true), Mark(Walker("car"), "", true)], 0)
  {
    var b0 := Board([Walker("cat"), Walker("car")], 0);
    NoTargetWhenUnhighlighted(b0.zombies);
    assert Text.Lower("c") == "c";
    assert Matches("c", b0.zombies[0]) && Matches("c", b0.zombies[1]);
    assert FirstMatch(b0.zombies, "c") == Some(0);
    var b1 := UpdateTyping(b0, "c");
    assert b1.zombies[0] == Mark(Walker("cat"), "c", true);
    assert b1.zombies[1] == Mark(Walker("car"), "", true);
  }

  lemma CatCarSecond()
    ensures UpdateTyping(Board([Mark(Walker("cat"), "c", true), Mark(Walker("car"), "", true)], 0), "a")
            == Board([Mark(Walker("cat"), "ca", true), Mark(Walker("car"), "", true)], 0)
  {
    var b1 := Board([Mark(Walker("cat"), "c", true), Mark(Walker("car"), "", true)], 0);
    assert Targeted(b1.zombies[0]);
    assert Target(b1.zombies) == Some(0);
    assert Text.Lower("a") == "a";
    assert Expected(b1.zombies[0]) == "a";
    assert "c" + "a" == "ca";
    var b2 := UpdateTyping(b1, "a");
    assert b2.zombies[0] == Mark(Walker("cat"), "ca", true);
  }

  lemma CatCarThird()
    ensures UpdateTyping(Board([Mark(Walker("cat"), "ca", true), Mark(Walker("car"), "", true)], 0), "t")
            == Board([Mark(Walker("car"), "", false)], 15)
  {
    var b2 := Board([Mark(Walker("cat"), "ca", true), Mark(Walker("car"), "", true)], 0);
    assert Targeted(b2.zombies[0]);
    assert Target(b2.zombies) == Some(0);
    assert Text.Lower("t") == "t";
    assert Expected(b2.zombies[0]) == "t";
    assert "ca" + "t" == "cat";
    var b3 := UpdateTyping(b2, "t");
    assert b3.score == 0 + 5 * 3;
    assert b3.zombies[0] == Mark(b2.zombies[1], "", false);
  }

  /** Words "ab" and "a" on screen. 'a' highlights both but gives progress to "ab" only.
      Once "ab" is gone (it reached the brain), "a" is the target with no progress, and 'a'
      completes it for 5 points: a one-letter word behind another match can be shot down. */
  lemma OneLetterBehindLeader()
    ensures var b0 := Board([Walker("ab"), Walker("a")], 0);
            var b1 := UpdateTyping(b0, "a");
            var b2 := Board(Lists.RemoveAt(b1.zombies, 0), b1.score);
            && b1.zombies[0].data.typedChars == "a" && b1.zombies[1].data.typedChars == ""
            && b1.zombies[1].data.isHighlighted
            && UpdateTyping(b2, "a") == Board([], 5)
  {
    LeaderFirst();
    LoneLetterShot();
  }

  lemma LeaderFirst()
    ensures UpdateTyping(Board([Walker("ab"), Walker("a")], 0), "a")
            == Board([Mark(Walker("ab"), "a", true), Mark(Walker("a"), "", true)], 0)
  {
    var b0 := Board([Walker("ab"), Walker("a")], 0);
    NoTargetWhenUnhighlighted(b0.zombies);
    assert Text.Lower("a") == "a";
    assert Matches("a", b0.zombies[0]) && Matches("a", b0.zombies[1]);
    assert FirstMatch(b0.zombies, "a") == Some(0);
    var b1 := UpdateTyping(b0, "a");
    assert b1.zombies[0] == Mark(Walker("ab"), "a", true);
    assert b1.zombies[1] == Mark(Walker("a"), "", true);
  }

  lemma LoneLetterShot()
    ensures UpdateTyping(Board([Mark(Walker("a"), "", true)], 0), "a") == Board([], 5)
  {
    var b := Board([Mark(Walker("a"), "", true)], 0);
    assert Targeted(b.zombies[0]);
    assert Target(b.zombies) == Some(0);
    assert Text.Lower("a") == "a";
    assert Expected(b.zombies[0]) == "a";
    assert "" + "a" == "a";
    var r := UpdateTyping(b, "a");
    assert r.score == 0 + 5 * 1;
  }

  /** A single zombie with word "game": 'g', 'a', 'm' build up the progress "gam"; a wrong
      'x' then clears the progress and the highlight and scores nothing, so the board is back
      where it started. */
  lemma WrongLetterMidWord()
    ensures var b0 := Board([Walker("game")], 0);
            var b3 := UpdateTyping(UpdateTyping(UpdateTyping(b0, "g"), "a"), "m");
            && b3 == Board([Mark(Walker("game"), "gam", true)], 0)
            && UpdateTyping(b3, "x") == b0
  {
    var w := "game";
    assert w[..1] == "g" && w[..2] == "ga" && w[..3] == "gam" && [w[1]] == "a" && [w[2]] == "m";
    GameFirst();
    GameExtend(1);
    GameExtend(2);
    GameWrong();
  }

  lemma GameFirst()
    ensures UpdateTyping(Board([Walker("game")], 0), "g") == Board([Mark(Walker("game"), "g", true)], 0)
  {
    var b0 := Board([Walker("game")], 0);
    NoTargetWhenUnhighlighted(b0.zombies);
    assert Text.Lower("g") == "g";
    assert FirstMatch(b0.zombies, "g") == Some(0) by {
      assert Matches("g", b0.zombies[0]);
    }
    var b1 := UpdateTyping(b0, "g");
    assert b1.zombies[0] == Mark(Walker("game"), "g", true);
  }

  /** With progress `"game"[..n]`, typing the next letter of "game" extends it by that letter. */
  lemma GameExtend(n: nat)
    requires 1 <= n < 3
    ensures var w := "game";
            UpdateTyping(Board([Mark(Walker(w), w[..n], true)], 0), [w[n]])
              == Board([Mark(Walker(w), w[..n + 1], true)], 0)
  {
    var w := "game";
    var c := [w[n]];
    var b := Board([Mark(Walker(w), w[..n], true)], 0);
    assert Targeted(b.zombies[0]);
    assert Target(b.zombies) == Some(0);
    assert Text.Lower(c) == c;
    assert Expected(b.zombies[0]) == c;
    assert w[..n] + c == w[..n + 1];
    var r := UpdateTyping(b, c);
    assert r.zombies[0] == Mark(Walker(w), w[..n + 1], true);
  }

  lemma GameWrong()
    ensures UpdateTyping(Board([Mark(Walker("game"), "gam", true)], 0), "x") == Board([Walker("game")], 0)
  {
    var b := Board([Mark(Walker("game"), "gam", true)], 0);
    assert Targeted(b.zombies[0]);
    assert Target(b.zombies) == Some(0);
    assert Text.Lower("x") == "x";
    assert Expected(b.zombies[0]) == "e";
    var r := UpdateTyping(b, "x");
    assert r.zombies[0] == Mark(b.zombies[0], "", false);
  }
}

=== FILE: screens.dfy ===
/** The screen transitions of `TypingGame.run`: menu, help and playing screens, driven by
    key events, with a match tick on every frame spent playing. */
module Screens {
  import opened Results
  import Text
  import Z = Zombies
  import G = Game
  import T = Typing

  datatype Screen = Menu | Help | Playing

  /** The key codes `run` tells apart; every other key is `OtherKey`. */
  datatype KeyCode = Escape | Digit1 | Digit2 | LetterR | Backspace | OtherKey

  /** A pygame event as `run` sees it: a window close, or a key press with its key code and
      the text it produced. */
  datatype Event = Quit | KeyDown(key: KeyCode, unicode: string)

  datatype App = App(screen: Screen, running: bool, game: G.Game)

  /** `__init__`: the menu, with a match state ready to be reset. */
  function Launch(cfg: G.Config): (a: App)
    ensures a.screen == Menu && a.running && G.Valid(a.game)
  {
    App(Menu, true, G.Start(cfg))
  }

  /** The escape handling of `run`: from play back to the menu with the match discarded,
      from help back to the menu, and from the menu out of the program. */
  function OnEscape(a: App): (r: App)
    // play: back to the menu with a fresh match, still running
    ensures a.screen == Playing ==>
              r.screen == Menu && r.running == a.running && r.game == G.Start(a.game.config)
    // help: back to the menu, nothing else changes
    ensures a.screen == Help ==> r == a.(screen := Menu)
    // menu: the program stops, nothing else changes
    ensures a.screen == Menu ==> r == a.(running := false)
    ensures r.game.config == a.game.config && (G.Valid(a.game) ==> G.Valid(r.game))
  {
    match a.screen
    case Playing => a.(screen := Menu, game := G.Reset(a.game))
    case Help => a.(screen := Menu)
    case Menu => a.(running := false)
  }

  /** The handling of one event in `run`. */
  function HandleEvent(a: App, e: Event): (r: App)
    // the match state stays valid and keeps its configuration
    ensures G.Valid(a.game) ==> G.Valid(r.game)
    ensures r.game.config == a.game.config
    // entering play always starts a fresh match, leaving play always discards the match
    ensures r.screen == Playing && a.screen != Playing ==> r.game == G.Start(a.game.config)
    ensures a.screen == Playing && r.screen != Playing ==> r.game == G.Start(a.game.config)
    // the program stops only on a window close or on escape in the menu
    ensures a.running && !r.running ==> e.Quit? || (a.screen == Menu && e.KeyDown? && e.key == Escape)
    // help is left only by escape, and nothing else happens there
    ensures a.screen == Help && e.KeyDown? && e.key != Escape ==> r == a
    // the score changes only by typing during play
    ensures a.game.score >= 0 && r.game.score > a.game.score ==> a.screen == Playing && r.screen == Playing
    // in the menu, '1' starts play with a fresh match, and '2' opens help
    ensures a.screen == Menu && e.KeyDown? && e.key != Escape && (e.key == Digit1 || e.unicode == "1") ==>
              r == a.(screen := Playing, game := G.Start(a.game.config))
    ensures a.screen == Menu && e.KeyDown? && e.key != Escape && e.key != Digit1 && e.unicode != "1" &&
            (e.key == Digit2 || e.unicode == "2") ==>
              r == a.(screen := Help)
    // in play, R after the match is over starts a fresh match
    ensures a.screen == Playing && e.KeyDown? && a.game.gameOver && e.key == LetterR ==>
              r == a.(game := G.Start(a.game.config))
    // in play, a letter is typed at the zombies and echoed to the input line
    ensures a.screen == Playing && e.KeyDown? && e.key != Escape && !(a.game.gameOver && e.key == LetterR) &&
            Text.IsAlpha(e.unicode) ==>
              var b := T.UpdateTyping(T.Board(a.game.zombies, a.game.score), e.unicode);
              r == a.(game := a.game.(zombies := b.zombies, score := b.score,
                                      currentInput := a.game.currentInput + e.unicode))
    // in play, Backspace clears the input line
    ensures a.screen == Playing && e.KeyDown? && e.key == Backspace && !Text.IsAlpha(e.unicode) ==>
              r == a.(game := a.game.(currentInput := ""))
  {
    match e
    case Quit => a.(running := false)
    case KeyDown(key, unicode) =>
      var a1 := if key == Escape then OnEscape(a) else a;
      if a1.screen == Menu then
        if key == Digit1 || unicode == "1" then a1.(screen := Playing, game := G.Reset(a1.game))
        else if key == Digit2 || unicode == "2" then a1.(screen := Help)
        else a1
      else if a1.screen == Playing then
        if a1.game.gameOver && key == LetterR then a1.(game := G.Reset(a1.game))
        else if Text.IsAlpha(unicode) then
          var g := G.Keystroke(a1.game, unicode);
          a1.(game := g.(currentInput := g.currentInput + unicode))
        else if key == Backspace then a1.(game := a1.game.(currentInput := ""))
        else a1
      else a1
  }

  /** The events of one frame, handled in order. */
  function HandleEvents(a: App, es: seq<Event>): (r: App)
    ensures r.game.config == a.game.config
    decreases |es|
  {
    if |es| == 0 then a else HandleEvents(HandleEvent(a, es[0]), es[1..])
  }

  /** However many events arrive, the match state stays valid, and the program, once
      stopped, stays stopped. */
  lemma {:induction false} EventsKeepValid(a: App, es: seq<Event>)
    ensures G.Valid(a.game) ==> G.Valid(HandleEvents(a, es).game)
    ensures HandleEvents(a, es).game.config == a.game.config
    ensures !a.running ==> !HandleEvents(a, es).running
    decreases |es|
  {
    if |es| > 0 {
      EventsKeepValid(HandleEvent(a, es[0]), es[1..]);
    }
  }

  /** Spawns the frame's tick will make once the events are handled. */
  function FrameSpawns(a: App, es: seq<Event>, dt: real): nat {
    var a1 := HandleEvents(a, es);
    if a1.screen == Playing then G.SpawnsDue(a1.game, dt) else 0
  }

  /** One pass of the `run` loop: the events, then a match tick if the screen is play. */
  function RunFrame(a: App, es: seq<Event>, dt: real, chs: seq<G.SpawnChoice>, mover: Z.Mover): (r: Result<App, G.GameError>)
    requires |chs| == FrameSpawns(a, es, dt) && G.ValidChoices(a.game.config, chs)
    ensures G.Valid(a.game) && r.Ok? ==> G.Valid(r.value.game)
    ensures r.Ok? ==> r.value.screen == HandleEvents(a, es).screen
    // the match advances only on the play screen
    ensures HandleEvents(a, es).screen != Playing ==> r == Ok(HandleEvents(a, es))
    // on the play screen the match takes exactly one tick, and only the match changes
    ensures var a1 := HandleEvents(a, es);
            a1.screen == Playing ==>
              && (r.Ok? <==> G.Tick(a1.game, dt, chs, mover).Ok?)
              && (r.Ok? ==> r.value == a1.(game := G.Tick(a1.game, dt, chs, mover).value))
  {
    var a1 := HandleEvents(a, es);
    EventsKeepValid(a, es);
    if a1.screen == Playing then
      var g :- G.Tick(a1.game, dt, chs, mover);
      Ok(a1.(game := g))
    else Ok(a1)
  }
}

=== FILE: sheets.dfy ===
/** `split_sheet`: cutting a horizontal sprite sheet of size `w` by `h` into frames of width
    `min(w, h)` and the sheet's full height `h`: squares when `w >= h`, and one `w` by `h`
    frame when `w < h`. */
module Sheets {
  import opened Results

  /** A sub-surface rectangle: left, top, width, height. */
  datatype Rect = Rect(left: int, top: int, width: int, height: int)

  /** Python raises `ZeroDivisionError` when the frame width `min(w, h)` is zero. */
  datatype SheetError = ZeroFrameWidth

  /** The frame count `w // frame_w`, as the loop bound of `split_sheet`. */
  function FrameCount(w: nat, fw: nat): (count: nat)
    requires 0 < fw <= w
    ensures 1 <= count
    ensures count * fw <= w < (count + 1) * fw
  {
    w / fw
  }

  function SplitSheet(w: nat, h: nat): (r: Result<seq<Rect>, SheetError>)
    ensures r.Err? <==> w == 0 || h == 0
    ensures r.Ok? ==> |r.value| >= 1
    ensures r.Ok? ==> forall i :: 0 <= i < |r.value| ==>
              var f := r.value[i];
              && f.top == 0 && f.height == h
              && f.width == (if w < h then w else h)
              && f.left == i * f.width
              && 0 <= f.left && f.left + f.width <= w
    ensures r.Ok? ==> var fw := if w < h then w else h; w < (|r.value| + 1) * fw
  {
    var fw := if w > h then h else w;
    if fw == 0 then Err(ZeroFrameWidth)
    else
      var count := FrameCount(w, fw);
      var frames := seq(count, i requires 0 <= i < count => Rect(i * fw, 0, fw, h));
      assert forall i :: 0 <= i < count ==> i * fw + fw <= w by {
        forall i | 0 <= i < count
          ensures i * fw + fw <= w
        {
          FrameFits(i, count, fw);
        }
      }
      Ok(frames)
  }

  /** Frame `i` of `count` ends no later than frame `count - 1`. */
  lemma FrameFits(i: nat, count: nat, fw: nat)
    requires i < count
    ensures i * fw + fw <= count * fw
  {
    assert (i + 1) * fw <= count * fw;
  }
}

=== FILE: text.dfy ===
/** The few string operations the game relies on, restricted to ASCII:
    `str.lower`, `str.strip`, `str.isalpha`, `str.startswith` and slicing. */
module Text {

  predicate IsUpper(ch: char) {
    'A' <= ch <= 'Z'
  }

  predicate IsLower(ch: char) {
    'a' <= ch <= 'z'
  }

  predicate IsLetter(ch: char) {
    IsUpper(ch) || IsLower(ch)
  }

  /** Python's whitespace for `str.strip()`, restricted to the ASCII range. */
  predicate IsSpace(ch: char) {
    ch as int == 32 || 9 <= ch as int <= 13 || 28 <= ch as int <= 31
  }

  /** `ch.lower()`: an upper-case letter becomes its lower-case partner, anything else is kept. */
  function LowerChar(ch: char): (r: char)
    ensures IsLetter(r) <==> IsLetter(ch)
    ensures IsLetter(ch) ==> IsLower(r)
    ensures !IsUpper(ch) ==> r == ch
    // the letter keeps its place in the alphabet
    ensures IsUpper(ch) ==> r as int - 'a' as int == ch as int - 'A' as int
  {
    if IsUpper(ch) then (ch as int + 32) as char else ch
  }

  /** `s.lower()`: lower-cases character by character, keeping the length. The result has
      no upper-case letter, is alphabetic exactly when `s` is, and equals `s` when `s` had no
      upper-case letter to begin with. */
  function Lower(s: string): (r: string)
    ensures |r| == |s|
    ensures forall i :: 0 <= i < |s| ==> r[i] == LowerChar(s[i])
    ensures NoUpper(r)
    ensures IsAlpha(r) <==> IsAlpha(s)
    ensures NoUpper(s) ==> r == s
  {
    seq(|s|, i requires 0 <= i < |s| => LowerChar(s[i]))
  }

  /** `s.isalpha()`: non-empty and letters only. */
  predicate IsAlpha(s: string) {
    |s| > 0 && forall i :: 0 <= i < |s| ==> IsLetter(s[i])
  }

  /** A string that lower-casing leaves alone. */
  predicate NoUpper(s: string) {
    forall i :: 0 <= i < |s| ==> !IsUpper(s[i])
  }

  /** `w.startswith(c)`: Dafny's `<=` on sequences is the prefix order. */
  predicate StartsWith(w: string, c: string) {
    c <= w
  }

  /** Python's `s[i:j]` for non-negative bounds: both ends are clamped to the length. */
  function Slice(s: string, i: nat, j: nat): (r: string)
    ensures |r| <= |s|
    ensures i < |s| && i < j ==> |r| > 0 && r[0] == s[i]
    ensures i >= |s| || j <= i ==> r == ""
    ensures i <= j <= |s| ==> r == s[i..j]
    ensures i <= |s| <= j ==> r == s[i..]
  {
    var lo := if i < |s| then i else |s|;
    var hi := if j < |s| then j else |s|;
    if lo <= hi then s[lo..hi] else ""
  }

  /** Python's `s[n:]`. */
  function Drop(s: string, n: nat): (r: string)
    ensures n <= |s| ==> s[..n] + r == s
    ensures n >= |s| ==> r == ""
  {
    if n <= |s| then s[n..] else ""
  }

  /** `s.lstrip()`: the suffix left after the leading whitespace. */
  function TrimStart(s: string): (r: string)
    ensures |r| <= |s| && r == s[|s| - |r|..]
    ensures forall i :: 0 <= i < |s| - |r| ==> IsSpace(s[i])
    ensures |r| > 0 ==> !IsSpace(r[0])
    decreases |s|
  {
    if |s| > 0 && IsSpace(s[0]) then TrimStart(s[1..]) else s
  }

  /** `s.rstrip()`: the prefix left before the trailing whitespace. */
  function TrimEnd(s: string): (r: string)
    ensures r <= s
    ensures forall i :: |r| <= i < |s| ==> IsSpace(s[i])
    ensures |r| > 0 ==> !IsSpace(r[|r| - 1])
    decreases |s|
  {
    if |s| > 0 && IsSpace(s[|s| - 1]) then TrimEnd(s[..|s| - 1]) else s
  }

  /** How many whitespace characters `s` starts with: where `lstrip` cuts. */
  function Lead(s: string): (a: nat)
    ensures a <= |s| && TrimStart(s) == s[a..]
    ensures forall i :: 0 <= i < a ==> IsSpace(s[i])
    ensures a < |s| ==> !IsSpace(s[a])
  {
    |s| - |TrimStart(s)|
  }

  /** `s.strip()`: a prefix of what `lstrip` leaves, such that everything after it is
      whitespace and it neither starts nor ends with whitespace. */
  function Strip(s: string): (r: string)
    ensures |r| <= |s|
    ensures |r| > 0 ==> !IsSpace(r[0]) && !IsSpace(r[|r| - 1])
    ensures r <= s[Lead(s)..]
    ensures forall i :: Lead(s) + |r| <= i < |s| ==> IsSpace(s[i])
    ensures (forall i :: 0 <= i < |s| ==> !IsSpace(s[i])) ==> r == s
  {
    var a := Lead(s);
    StripCuts(s, a, TrimEnd(s[a..]));
    TrimEnd(s[a..])
  }

  /** The two cuts of `strip`, seen from the original string: `a` is where `lstrip` cuts,
      `r` what `rstrip` then leaves of `s[a..]`. */
  lemma StripCuts(s: string, a: nat, r: string)
    requires a <= |s| && forall i :: 0 <= i < a ==> IsSpace(s[i])
    requires a < |s| ==> !IsSpace(s[a])
    requires r <= s[a..] && forall i :: |r| <= i < |s[a..]| ==> IsSpace(s[a..][i])
    requires |r| > 0 ==> !IsSpace(r[|r| - 1])
    ensures |r| <= |s|
    ensures |r| > 0 ==> !IsSpace(r[0]) && !IsSpace(r[|r| - 1])
    ensures a + |r| <= |s| && r == s[a..a + |r|]
    ensures forall i :: a + |r| <= i < |s| ==> IsSpace(s[i])
    ensures (forall i :: 0 <= i < |s| ==> !IsSpace(s[i])) ==> r == s
  {
    var t := s[a..];
    forall i | a + |r| <= i < |s|
      ensures IsSpace(s[i])
    {
      assert s[i] == t[i - a];
    }
    assert r == t[..|r|];
    if |r| > 0 {
      assert r[0] == s[a];
    }
    if forall i :: 0 <= i < |s| ==> !IsSpace(s[i]) {
      if a > 0 {
        assert IsSpace(s[0]);
      }
      if |r| < |t| {
        assert IsSpace(s[a + |r|]);
      }
    }
  }

}

=== FILE: typing.dfy ===
/** Keystroke-to-target matching, `TypingGame.update_typing`: the state machine over the
    zombies' typed progress and highlight flags, and the score it awards. */
module Typing {
  import opened Results
  import opened Text
  import opened Lists
  import opened Zombies

  /** Points per letter of a completed word. */
  const PointsPerLetter: int := 5

  /** The part of the game state a keystroke touches. */
  datatype Board = Board(zombies: seq<Zombie>, score: int)

  /** A zombie the player is currently typing at. */
  predicate Targeted(z: Zombie) {
    z.data.isHighlighted && !z.data.isDead
  }

  /** A live zombie whose word starts with `c`. */
  predicate Matches(c: string, z: Zombie) {
    StartsWith(z.data.word, c) && !z.data.isDead
  }

  /** `highlighted[0]`: the first targeted zombie in list order. */
  function Target(zs: seq<Zombie>): Option<nat> {
    First(zs, Targeted)
  }

  /** `matches[0]`: the first live zombie whose word starts with `c`. */
  function FirstMatch(zs: seq<Zombie>, c: string): Option<nat> {
    First(zs, z => Matches(c, z))
  }

  /** `word[len(typed) : len(typed) + 1]`: the next letter to type, or "" once the word is full. */
  function Expected(z: Zombie): (r: string)
    ensures |r| <= 1
    ensures z.data.typedChars < z.data.word ==> r == [z.data.word[|z.data.typedChars|]]
    ensures |z.data.typedChars| >= |z.data.word| ==> r == ""
  {
    Slice(z.data.word, |z.data.typedChars|, |z.data.typedChars| + 1)
  }

  /** `z` with its typing marks, the typed progress and the highlight flag, replaced. */
  function Mark(z: Zombie, typed: string, highlighted: bool): Zombie {
    z.(data := z.data.(typedChars := typed, isHighlighted := highlighted))
  }

  /** Every zombie's typed progress is a prefix of its word. */
  predicate Prefixed(zs: seq<Zombie>) {
    forall i :: 0 <= i < |zs| ==> zs[i].data.typedChars <= zs[i].data.word
  }

  /** At most one zombie carries typed progress, and it is the one being typed at. */
  predicate Focused(zs: seq<Zombie>) {
    forall i :: 0 <= i < |zs| && zs[i].data.typedChars != "" ==> Target(zs) == Some(i)
  }

  /** The miss branch: progress and highlight cleared on every zombie. */
  function ClearAll(zs: seq<Zombie>): (r: seq<Zombie>)
    ensures |r| == |zs|
    ensures forall i :: 0 <= i < |zs| ==> r[i] == Mark(zs[i], "", false)
    ensures FramesOk(zs) ==> FramesOk(r)
    // nothing is targeted afterwards and no progress is left, so both typing invariants hold
    ensures Target(r).None? && Prefixed(r) && Focused(r)
  {
    var r := seq(|zs|, i requires 0 <= i < |zs| => Mark(zs[i], "", false));
    NoTargetWhenUnhighlighted(r);
    r
  }

  /** After a completed word: the highlight cleared on every remaining zombie, progress kept. */
  function Unhighlight(zs: seq<Zombie>): (r: seq<Zombie>)
    ensures |r| == |zs|
    ensures forall i :: 0 <= i < |zs| ==> r[i] == Mark(zs[i], zs[i].data.typedChars, false)
    ensures FramesOk(zs) ==> FramesOk(r)
    // nothing is targeted afterwards, and progress that was a prefix of its word still is
    ensures Target(r).None?
    ensures Prefixed(zs) ==> Prefixed(r)
  {
    var r := seq(|zs|, i requires 0 <= i < |zs| => Mark(zs[i], zs[i].data.typedChars, false));
    NoTargetWhenUnhighlighted(r);
    r
  }

  /** The first-letter branch: every live zombie whose word starts with `c` is highlighted,
      every other one is not, and only the first of them gets `c` as its progress. */
  function Acquire(zs: seq<Zombie>, c: string): (r: seq<Zombie>)
    ensures |r| == |zs|
    ensures forall i :: 0 <= i < |zs| ==> r[i].data.isHighlighted == Matches(c, zs[i])
    ensures forall i :: 0 <= i < |zs| ==>
              r[i].data.typedChars == (if FirstMatch(zs, c) == Some(i) then c else zs[i].data.typedChars)
    ensures forall i :: 0 <= i < |zs| ==> r[i] == Mark(zs[i], r[i].data.typedChars, r[i].data.isHighlighted)
    ensures FramesOk(zs) ==> FramesOk(r)
  {
    var marked := seq(|zs|, i requires 0 <= i < |zs| => Mark(zs[i], zs[i].data.typedChars, Matches(c, zs[i])));
    match FirstMatch(zs, c)
    case None => marked
    case Some(j) => marked[j := Mark(zs[j], c, true)]
  }

  /** The score went from `before` to `after` by whole words' worth: a multiple of 5. */
  predicate WholeWords(before: int, after: int) {
    after >= before && (after - before) % PointsPerLetter == 0
  }

  /** A word's worth: 5 points a letter. */
  function WordPoints(w: string): (p: int)
    ensures p >= 0 && p % PointsPerLetter == 0
    ensures |w| == 0 ==> p == 0
    ensures |w| == 1 ==> p == PointsPerLetter
  {
    PointsPerLetter * |w|
  }

  /** Every letter counts on its own: a word is worth the sum of its parts, so (with a
      single letter worth 5) exactly 5 points per letter. */
  lemma WordPointsAdd(a: string, b: string)
    ensures WordPoints(a + b) == WordPoints(a) + WordPoints(b)
  {
  }

  /** The branch where `c` is the expected next letter of the target `zs[k]`. */
  function Advance(b: Board, k: nat, c: string): (r: Board)
    requires Target(b.zombies) == Some(k)
    requires |c| > 0 && c == Expected(b.zombies[k])
    ensures var z := b.zombies[k];
            z.data.typedChars + c == z.data.word ==>
              && r.score == b.score + WordPoints(z.data.word)
              && r.zombies == Unhighlight(RemoveAt(b.zombies, k))
    ensures var z := b.zombies[k];
            z.data.typedChars + c != z.data.word ==>
              && r.score == b.score
              && r.zombies == b.zombies[k := Mark(z, z.data.typedChars + c, true)]
    ensures Prefixed(b.zombies) ==> Prefixed(r.zombies)
    ensures Prefixed(b.zombies) && Focused(b.zombies) ==> Focused(r.zombies)
    ensures FramesOk(b.zombies) ==> FramesOk(r.zombies)
  {
    var z := b.zombies[k];
    var typed := z.data.typedChars + c;
    ExtendPrefix(z.data.typedChars, z.data.word, c);
    if typed == z.data.word then
      var r := Board(Unhighlight(RemoveAt(b.zombies, k)), b.score + WordPoints(z.data.word));
      FocusAfterCompletion(b.zombies, k, r.zombies);
      r
    else
      var r := Board(b.zombies[k := Mark(z, typed, true)], b.score);
      TargetKept(b.zombies, k, Mark(z, typed, true));
      r
  }

  /** The branch with a target `zs[k]`: the right next letter advances it, any other
      letter is a miss that clears every mark. */
  function Strike(b: Board, k: nat, c: string): (r: Board)
    requires Target(b.zombies) == Some(k) && |c| > 0
    ensures WholeWords(b.score, r.score)
    ensures |r.zombies| <= |b.zombies|
    ensures Prefixed(b.zombies) ==> Prefixed(r.zombies)
    ensures Prefixed(b.zombies) && Focused(b.zombies) ==> Focused(r.zombies)
    ensures FramesOk(b.zombies) ==> FramesOk(r.zombies)
    ensures var z := b.zombies[k];
            c == Expected(z) && z.data.typedChars + c == z.data.word ==>
              && r.score == b.score + PointsPerLetter * |z.data.word|
              && |r.zombies| == |b.zombies| - 1
              && (forall i :: 0 <= i < k ==>
                    r.zombies[i] == Mark(b.zombies[i], b.zombies[i].data.typedChars, false))
              && (forall i :: k <= i < |r.zombies| ==>
                    r.zombies[i] == Mark(b.zombies[i + 1], b.zombies[i + 1].data.typedChars, false))
    ensures var z := b.zombies[k];
            c == Expected(z) && z.data.typedChars + c != z.data.word ==>
              && r.score == b.score
              && |r.zombies| == |b.zombies|
              && r.zombies[k] == Mark(z, z.data.typedChars + c, true)
              && (forall i :: 0 <= i < |b.zombies| && i != k ==> r.zombies[i] == b.zombies[i])
    ensures c != Expected(b.zombies[k]) ==>
              && r.score == b.score
              && |r.zombies| == |b.zombies|
              && (forall i :: 0 <= i < |b.zombies| ==> r.zombies[i] == Mark(b.zombies[i], "", false))
  {
    if c == Expected(b.zombies[k]) then
      var r := Advance(b, k, c);
      RemovedUnhighlighted(b.zombies, k);
      r
    else
      var r := Board(ClearAll(b.zombies), b.score);
      NoTargetWhenUnhighlighted(r.zombies);
      r
  }

  /** Removing `zs[k]` and clearing the highlights shifts every later zombie down by one. */
  lemma RemovedUnhighlighted(zs: seq<Zombie>, k: nat)
    requires k < |zs|
    ensures var r := Unhighlight(RemoveAt(zs, k));
            && |r| == |zs| - 1
            && (forall i :: 0 <= i < k ==> r[i] == Mark(zs[i], zs[i].data.typedChars, false))
            && (forall i :: k <= i < |r| ==> r[i] == Mark(zs[i + 1], zs[i + 1].data.typedChars, false))
  {
  }

  /** `update_typing(char)` */
  function UpdateTyping(b: Board, key: string): (r: Board)
    // an empty key is ignored
    ensures |key| == 0 ==> r == b
    // the score never decreases and only grows by whole words, and no zombie is added
    ensures WholeWords(b.score, r.score)
    ensures |r.zombies| <= |b.zombies|
    // the typed progress stays a prefix of the word, on one zombie at most
    ensures Prefixed(b.zombies) ==> Prefixed(r.zombies)
    ensures Prefixed(b.zombies) && Focused(b.zombies) ==> Focused(r.zombies)
    // the animation state is not touched
    ensures FramesOk(b.zombies) ==> FramesOk(r.zombies)
    // the right next letter of the first targeted zombie, completing its word: that zombie
    // alone is removed, its word scores 5 points a letter, every other highlight is cleared
    ensures |key| > 0 && Target(b.zombies).Some? ==>
              var k := Target(b.zombies).value;
              var z := b.zombies[k];
              Lower(key) == Expected(z) && z.data.typedChars + Lower(key) == z.data.word ==>
                && r.score == b.score + PointsPerLetter * |z.data.word|
                && |r.zombies| == |b.zombies| - 1
                && (forall i :: 0 <= i < k ==>
                      r.zombies[i] == Mark(b.zombies[i], b.zombies[i].data.typedChars, false))
                && (forall i :: k <= i < |r.zombies| ==>
                      r.zombies[i] == Mark(b.zombies[i + 1], b.zombies[i + 1].data.typedChars, false))
    // the right next letter, word not yet complete: that zombie's progress grows by the
    // letter and nothing else changes
    ensures |key| > 0 && Target(b.zombies).Some? ==>
              var k := Target(b.zombies).value;
              var z := b.zombies[k];
              Lower(key) == Expected(z) && z.data.typedChars + Lower(key) != z.data.word ==>
                && r.score == b.score
                && |r.zombies| == |b.zombies|
                && r.zombies[k] == Mark(z, z.data.typedChars + Lower(key), true)
                && (forall i :: 0 <= i < |b.zombies| && i != k ==> r.zombies[i] == b.zombies[i])
    // a wrong letter: every zombie loses its progress and its highlight, none is removed
    ensures |key| > 0 && Target(b.zombies).Some? ==>
              var k := Target(b.zombies).value;
              Lower(key) != Expected(b.zombies[k]) ==>
                && r.score == b.score
                && |r.zombies| == |b.zombies|
                && (forall i :: 0 <= i < |b.zombies| ==> r.zombies[i] == Mark(b.zombies[i], "", false))
    // nothing targeted: exactly the live zombies whose word starts with the letter are
    // highlighted, the first of them alone gets the letter as progress, none is removed
    ensures |key| > 0 && Target(b.zombies).None? ==>
              && r.score == b.score
              && |r.zombies| == |b.zombies|
              && (forall i :: 0 <= i < |b.zombies| ==>
                    r.zombies[i].data.isHighlighted == Matches(Lower(key), b.zombies[i]))
              && (forall i :: 0 <= i < |b.zombies| ==>
                    r.zombies[i].data.typedChars ==
                      (if FirstMatch(b.zombies, Lower(key)) == Some(i) then Lower(key)
                       else b.zombies[i].data.typedChars))
              && (forall i :: 0 <= i < |b.zombies| ==>
                    r.zombies[i] == Mark(b.zombies[i], r.zombies[i].data.typedChars, r.zombies[i].data.isHighlighted))
  {
    if |key| == 0 then
      b
    else
      var c := Lower(key);
      match Target(b.zombies)
      case Some(k) => Strike(b, k, c)
      case None =>
        var r := Board(Acquire(b.zombies, c), b.score);
        FocusAfterAcquire(b.zombies, c, r.zombies);
        r
  }

  /** Appending the expected next letter to a prefix gives a longer prefix. */
  lemma ExtendPrefix(t: string, w: string, c: string)
    requires |c| > 0 && c == Slice(w, |t|, |t| + 1)
    ensures t <= w ==> |t| < |w| && c == [w[|t|]] && t + c <= w
  {
    if t <= w {
      assert t + c == w[..|t| + 1];
    }
  }

  /** With no highlight anywhere there is no target. */
  lemma NoTargetWhenUnhighlighted(zs: seq<Zombie>)
    requires forall i :: 0 <= i < |zs| ==> !zs[i].data.isHighlighted
    ensures Target(zs).None?
  {
  }

  /** Replacing the target by another targeted zombie keeps it the target. */
  lemma TargetKept(zs: seq<Zombie>, k: nat, z: Zombie)
    requires Target(zs) == Some(k)
    requires Targeted(z)
    ensures Target(zs[k := z]) == Some(k)
  {
    var zs' := zs[k := z];
    assert forall i :: 0 <= i < k ==> zs'[i] == zs[i];
    assert Targeted(zs'[k]);
  }

  lemma FocusAfterCompletion(zs: seq<Zombie>, k: nat, r: seq<Zombie>)
    requires Target(zs) == Some(k)
    requires r == Unhighlight(RemoveAt(zs, k))
    ensures Target(r).None?
    ensures Focused(zs) ==> Focused(r)
  {
    NoTargetWhenUnhighlighted(r);
    if Focused(zs) {
      forall i | 0 <= i < |r|
        ensures r[i].data.typedChars == ""
      {
        var j := if i < k then i else i + 1;
        assert r[i].data.typedChars == zs[j].data.typedChars;
        assert Target(zs) != Some(j);
      }
    }
  }

  lemma FocusAfterAcquire(zs: seq<Zombie>, c: string, r: seq<Zombie>)
    requires Target(zs).None?
    requires |c| > 0
    requires r == Acquire(zs, c)
    ensures Focused(zs) ==> Focused(r)
  {
    if Focused(zs) {
      match FirstMatch(zs, c)
      case None =>
        assert forall i :: 0 <= i < |r| ==> !r[i].data.isHighlighted;
        NoTargetWhenUnhighlighted(r);
      case Some(j) =>
        assert forall i :: 0 <= i < |r| ==> (Targeted(r[i]) <==> Matches(c, zs[i]));
        assert Target(r) == Some(j);
    }
  }

  /** The keys `keys[0]`, `keys[1]`, ... typed one after the other. */
  function TypeAll(b: Board, keys: seq<string>): Board
    decreases |keys|
  {
    if |keys| == 0 then b else TypeAll(UpdateTyping(b, keys[0]), keys[1..])
  }

  /** The one-letter keys that spell `s`. */
  function Keys(s: string): (keys: seq<string>)
    ensures |keys| == |s|
    ensures forall i :: 0 <= i < |s| ==> keys[i] == [s[i]]
  {
    seq(|s|, i requires 0 <= i < |s| => [s[i]])
  }

  /** Over any run of keystrokes every typed progress stays a prefix of its word, at most
      one zombie carries progress, no zombie appears and the score never decreases. */
  lemma {:induction false} TypingKeepsInvariants(b: Board, keys: seq<string>)
    requires Prefixed(b.zombies) && Focused(b.zombies)
    ensures Prefixed(TypeAll(b, keys).zombies)
    ensures Focused(TypeAll(b, keys).zombies)
    ensures |TypeAll(b, keys).zombies| <= |b.zombies|
    ensures TypeAll(b, keys).score >= b.score
    decreases |keys|
  {
    if |keys| > 0 {
      TypingKeepsInvariants(UpdateTyping(b, keys[0]), keys[1..]);
    }
  }

  /** Typing the rest of the first targeted zombie's word, letter by letter, scores exactly
      5 points per letter of the whole word and removes that zombie alone, clearing the
      other highlights. */
  lemma {:induction false} FinishingWordScoresIt(b: Board, k: nat)
    requires Target(b.zombies) == Some(k)
    requires b.zombies[k].data.typedChars < b.zombies[k].data.word
    requires NoUpper(b.zombies[k].data.word)
    ensures var z := b.zombies[k];
            var r := TypeAll(b, Keys(z.data.word[|z.data.typedChars|..]));
            && r.score == b.score + PointsPerLetter * |z.data.word|
            && r.zombies == Unhighlight(RemoveAt(b.zombies, k))
    decreases |b.zombies[k].data.word| - |b.zombies[k].data.typedChars|
  {
    var z := b.zombies[k];
    var w, t := z.data.word, z.data.typedChars;
    var rest := w[|t|..];
    var key := [w[|t|]];
    assert Keys(rest)[0] == key;
    NextLetter(b, k);
    var b1 := UpdateTyping(b, key);
    assert TypeAll(b, Keys(rest)) == TypeAll(b1, Keys(rest)[1..]);
    if t + key == w {
      assert |rest| == 1;
    } else {
      assert Keys(rest)[1..] == Keys(w[|t| + 1..]);
      FinishingWordScoresIt(b1, k);
      assert RemoveAt(b1.zombies, k) == RemoveAt(b.zombies, k);
    }
  }

  /** One letter of the rest of the target's word: either it completes the word, or the
      same zombie stays the target with one more letter typed. */
  lemma NextLetter(b: Board, k: nat)
    requires Target(b.zombies) == Some(k)
    requires b.zombies[k].data.typedChars < b.zombies[k].data.word
    requires NoUpper(b.zombies[k].data.word)
    ensures var z := b.zombies[k];
            var w, t := z.data.word, z.data.typedChars;
            var key := [w[|t|]];
            var b1 := UpdateTyping(b, key);
            if t + key == w then
              && b1.score == b.score + PointsPerLetter * |w|
              && b1.zombies == Unhighlight(RemoveAt(b.zombies, k))
            else
              && b1 == Board(b.zombies[k := Mark(z, t + key, true)], b.score)
              && t + key == w[..|t| + 1]
              && Target(b1.zombies) == Some(k)
  {
    var z := b.zombies[k];
    var w, t := z.data.word, z.data.typedChars;
    var key := [w[|t|]];
    assert Lower(key) == key by {
      assert !IsUpper(w[|t|]);
    }
    assert Expected(z) == key;
    var b1 := UpdateTyping(b, key);
    assert b1 == Advance(b, k, key);
    if t + key != w {
      assert t + key == w[..|t| + 1];
      TargetKept(b.zombies, k, Mark(z, t + key, true));
    }
  }

  /** When the first match of a keystroke has a one-letter word, the first-letter branch
      fills that word without scoring it, and the next keystroke, whatever it is, is a miss
      that clears the progress again. */
  lemma OneLetterFirstMatchMissesNext(b: Board, key: string, next: string)
    requires Target(b.zombies).None?
    requires |key| > 0 && |next| > 0
    requires FirstMatch(b.zombies, Lower(key)).Some?
    requires |b.zombies[FirstMatch(b.zombies, Lower(key)).value].data.word| == 1
    ensures var j := FirstMatch(b.zombies, Lower(key)).value;
            var b1 := UpdateTyping(b, key);
            var b2 := UpdateTyping(b1, next);
            && b1.score == b.score
            && b1.zombies[j].data.typedChars == b1.zombies[j].data.word
            && Target(b1.zombies).Some?
            && b2.score == b.score
            && |b2.zombies| == |b.zombies|
            && b2.zombies[j].data.typedChars == ""
  {
    var j := FirstMatch(b.zombies, Lower(key)).value;
    var b1 := UpdateTyping(b, key);
    var w := b.zombies[j].data.word;
    assert Matches(Lower(key), b.zombies[j]);
    assert |Lower(key)| == 1;
    assert Lower(key) == w;
    assert Targeted(b1.zombies[j]);
    var k := Target(b1.zombies).value;
    assert k <= j;
    assert Targeted(b1.zombies[k]);
    assert Matches(Lower(key), b.zombies[k]);
    assert k == j;
    assert Expected(b1.zombies[k]) == "";
  }
}

=== FILE: words.dfy ===
/** The word list: `load_words` keeps each line of the word file that, once stripped
    and lower-cased, is purely alphabetic. Reading the file is left to the caller,
    which hands over its lines. */
module Words {
  import opened Text

  /** `line.strip().lower()` */
  function Normalize(line: string): string {
    Lower(Strip(line))
  }

  /** A word the spawner may hand out: non-empty lower-case letters. */
  predicate IsGameWord(w: string) {
    |w| > 0 && forall i :: 0 <= i < |w| ==> IsLower(w[i])
  }

  /** The filter of `load_words`: in file order, every normalized line that passes `isalpha`. */
  function LoadWords(lines: seq<string>): (words: seq<string>)
    ensures |words| <= |lines|
    ensures forall w :: w in words ==> IsGameWord(w)
    ensures forall w :: w in words ==> exists l :: l in lines && Normalize(l) == w
    ensures forall l :: l in lines && IsAlpha(Normalize(l)) ==> Normalize(l) in words
    ensures forall l :: l in lines && !IsAlpha(Normalize(l)) ==> Normalize(l) !in words
    decreases |lines|
  {
    if |lines| == 0 then []
    else
      var rest := LoadWords(lines[1..]);
      KeepOrDrop(lines, rest);
      if IsAlpha(Normalize(lines[0])) then [Normalize(lines[0])] + rest else rest
  }

  /** The step of the filter: given what the tail keeps, keeping or dropping the head line
      keeps the filter's promises for the whole list. */
  lemma KeepOrDrop(lines: seq<string>, rest: seq<string>)
    requires |lines| > 0
    requires forall w :: w in rest ==> IsGameWord(w)
    requires forall w :: w in rest ==> exists l :: l in lines[1..] && Normalize(l) == w
    requires forall l :: l in lines[1..] && IsAlpha(Normalize(l)) ==> Normalize(l) in rest
    requires forall l :: l in lines[1..] && !IsAlpha(Normalize(l)) ==> Normalize(l) !in rest
    ensures var r := if IsAlpha(Normalize(lines[0])) then [Normalize(lines[0])] + rest else rest;
            && (forall w :: w in r ==> IsGameWord(w))
            && (forall w :: w in r ==> exists l :: l in lines && Normalize(l) == w)
            && (forall l :: l in lines && IsAlpha(Normalize(l)) ==> Normalize(l) in r)
            && (forall l :: l in lines && !IsAlpha(Normalize(l)) ==> Normalize(l) !in r)
  {
    var w := Normalize(lines[0]);
    AlphaIsGameWord(Strip(lines[0]));
    assert forall l :: l in lines <==> l == lines[0] || l in lines[1..];
  }

  /** A line is alphabetic after lower-casing exactly when it was before, and then it is a
      game word. */
  lemma AlphaIsGameWord(s: string)
    ensures IsAlpha(Lower(s)) <==> IsAlpha(s)
    ensures IsAlpha(Lower(s)) ==> IsGameWord(Lower(s))
  {
  }

  /** What one line contributes: its normal form, or nothing. */
  function Kept(line: string): seq<string> {
    if IsAlpha(Normalize(line)) then [Normalize(line)] else []
  }

  /** The filter works line by line: a non-empty list gives its first line's contribution
      followed by the rest's. */
  lemma LoadWordsStep(lines: seq<string>)
    requires |lines| > 0
    ensures LoadWords(lines) == Kept(lines[0]) + LoadWords(lines[1..])
  {
  }

  /** The filter keeps file order: the words of two stretches of the file are the words of
      the first followed by the words of the second, and a single line gives its normal
      form or nothing. So duplicate lines give duplicate words, and no word moves. */
  lemma {:induction false} LoadWordsInOrder(a: seq<string>, b: seq<string>)
    ensures LoadWords(a + b) == LoadWords(a) + LoadWords(b)
    ensures |a| == 1 ==> LoadWords(a) == Kept(a[0])
    decreases |a|
  {
    if |a| == 0 {
      assert a + b == b;
    } else {
      var ab := a + b;
      assert ab[0] == a[0] && ab[1..] == a[1..] + b;
      LoadWordsStep(ab);
      LoadWordsStep(a);
      LoadWordsInOrder(a[1..], b);
      Associative(Kept(a[0]), LoadWords(a[1..]), LoadWords(b));
      if |a| == 1 {
        assert a[1..] == [];
      }
    }
  }

  /** Regrouping a concatenation of three lists, stated apart so that the inductive step
      above uses it without the definition of `LoadWords` in scope. */
  lemma Associative(k: seq<string>, x: seq<string>, y: seq<string>)
    ensures k + (x + y) == (k + x) + y
  {
  }

  /** A kept word is never empty and has no upper-case letter, so `lower()` leaves it alone
      and a spawned zombie always has a first letter to be targeted by. */
  lemma LoadedWordsAreTypeable(lines: seq<string>)
    ensures forall w :: w in LoadWords(lines) ==> |w| > 0 && NoUpper(w) && Lower(w) == w
  {
    forall w | w in LoadWords(lines)
      ensures |w| > 0 && NoUpper(w) && Lower(w) == w
    {
      assert IsGameWord(w);
    }
  }
}

=== FILE: zombies.dfy ===
/** A zombie: its record (`ZombieData`) and the per-tick bookkeeping of `Zombie.update`,
    the animation frame counter and the "stop within 5 units" guard. The movement vector
    itself (a square root and a division) is supplied by the caller as a `Mover`. */
module Zombies {
  import opened Text

  /** Seconds between two walk frames. */
  const FrameDelay: real := 0.2
  /** Drawn width and height of a zombie sprite. */
  const SpriteSize: int := 256
  /** Units per second at speed multiplier 1. */
  const BaseSpeed: real := 30.0
  /** A zombie closer than this to its target stops closing in. */
  const ArriveRadius: real := 5.0

  datatype ZombieData = ZombieData(
    x: real,
    y: real,
    word: string,
    typedChars: string,
    zombieType: int,
    pathProgress: real,
    isHighlighted: bool,
    isDead: bool,
    fromRight: bool)

  /** `walkFrames` is the length of the sprite's "walk" clip, 0 when the clip is missing or empty. */
  datatype Zombie = Zombie(
    data: ZombieData,
    walkFrames: nat,
    currentFrame: int,
    frameTimer: real,
    frameDelay: real,
    width: int,
    height: int,
    speedMultiplier: real)

  /** Given the offset `(dx, dy)` to the target and the distance `speed` to cover this tick,
      the displacement `(dx / |d| * speed, dy / |d| * speed)`. */
  type Mover = (real, real, real) -> (real, real)

  /** A `ZombieData` built with the dataclass defaults for the flags. */
  function NewData(x: real, y: real, word: string, typedChars: string, zombieType: int, pathProgress: real): (d: ZombieData)
    ensures !d.isHighlighted && !d.isDead && !d.fromRight
    ensures d.word == word && d.typedChars == typedChars && d.zombieType == zombieType
    ensures d.x == x && d.y == y && d.pathProgress == pathProgress
  {
    ZombieData(x, y, word, typedChars, zombieType, pathProgress, false, false, false)
  }

  /** `Zombie.__init__`. */
  function New(data: ZombieData, walkFrames: nat): (z: Zombie)
    // a new zombie starts on the first frame of its clip, at base speed, with its record untouched
    ensures z.data == data && z.walkFrames == walkFrames && FrameOk(z)
    ensures z.currentFrame == 0 && z.frameTimer == 0.0 && z.frameDelay == FrameDelay
    ensures z.width == SpriteSize && z.height == SpriteSize && z.speedMultiplier == 1.0
  {
    Zombie(data, walkFrames, 0, 0.0, FrameDelay, SpriteSize, SpriteSize, 1.0)
  }

  /** The animation counter points into the walk clip, and sits at 0 when there is none. */
  predicate FrameOk(z: Zombie) {
    if z.walkFrames > 0 then 0 <= z.currentFrame < z.walkFrames else z.currentFrame == 0
  }

  /** `FrameOk` for every zombie of a list. */
  predicate FramesOk(zs: seq<Zombie>) {
    forall i :: 0 <= i < |zs| ==> FrameOk(zs[i])
  }

  function SqDist(x1: real, y1: real, x2: real, y2: real): real {
    (x2 - x1) * (x2 - x1) + (y2 - y1) * (y2 - y1)
  }

  /** The frame counter step of `Zombie.update`, taken once the frame timer reaches the delay. */
  function NextFrame(z: Zombie): (f: int)
    ensures z.walkFrames == 0 ==> f == z.currentFrame
    ensures z.walkFrames > 0 ==> 0 <= f < z.walkFrames
    ensures z.walkFrames > 0 && 0 <= z.currentFrame < z.walkFrames - 1 ==> f == z.currentFrame + 1
    ensures z.walkFrames > 0 && z.currentFrame == z.walkFrames - 1 ==> f == 0
  {
    if z.walkFrames > 0 then (z.currentFrame + 1) % z.walkFrames else z.currentFrame
  }

  /** `Zombie.update(dt, tx, ty)`. */
  function Update(z: Zombie, dt: real, tx: real, ty: real, mover: Mover): (r: Zombie)
    // a dead zombie is left exactly as it was
    ensures z.data.isDead ==> r == z
    // only the position, the frame counter and the frame timer can change
    ensures r.data == z.data.(x := r.data.x, y := r.data.y)
    ensures r == z.(data := r.data, currentFrame := r.currentFrame, frameTimer := r.frameTimer)
    // the frame counter stays inside the walk clip, and never moves without one
    ensures FrameOk(z) ==> FrameOk(r)
    ensures z.walkFrames == 0 ==> r.currentFrame == z.currentFrame
    ensures !z.data.isDead && z.frameTimer + dt >= z.frameDelay ==>
              r.frameTimer == 0.0 && r.currentFrame == NextFrame(z)
    ensures !z.data.isDead && z.frameTimer + dt < z.frameDelay ==>
              r.frameTimer == z.frameTimer + dt && r.currentFrame == z.currentFrame
    // within 5 units of the target the position does not change
    ensures SqDist(z.data.x, z.data.y, tx, ty) <= ArriveRadius * ArriveRadius ==>
              r.data.x == z.data.x && r.data.y == z.data.y
    ensures !z.data.isDead && SqDist(z.data.x, z.data.y, tx, ty) > ArriveRadius * ArriveRadius ==>
              var step := mover(tx - z.data.x, ty - z.data.y, BaseSpeed * dt * z.speedMultiplier);
              r.data.x == z.data.x + step.0 && r.data.y == z.data.y + step.1
  {
    if z.data.isDead then z
    else
      var timer := z.frameTimer + dt;
      var z1 :=
        if timer >= z.frameDelay then z.(frameTimer := 0.0, currentFrame := NextFrame(z))
        else z.(frameTimer := timer);
      var speed := BaseSpeed * dt * z.speedMultiplier;
      if SqDist(z.data.x, z.data.y, tx, ty) > ArriveRadius * ArriveRadius then
        var step := mover(tx - z.data.x, ty - z.data.y, speed);
        z1.(data := z1.data.(x := z.data.x + step.0, y := z.data.y + step.1))
      else z1
  }

  /** The label split of `Zombie.draw`: the typed part (drawn green) and the rest (drawn white). */
  function Split(d: ZombieData): (parts: (string, string))
    ensures parts.0 == d.typedChars
    ensures d.typedChars <= d.word ==> parts.0 + parts.1 == d.word
    ensures |d.typedChars| >= |d.word| ==> parts.1 == ""
  {
    (d.typedChars, Drop(d.word, |d.typedChars|))
  }

  /** The text `Zombie.draw` shows: the whole word when nothing is typed, otherwise the
      typed part followed by the remaining part. */
  function Label(d: ZombieData): string {
    var (typed, remaining) := Split(d);
    if |typed| > 0 then typed + remaining else d.word
  }

  /** Whatever has been typed, the label reads as the zombie's word, as long as the typed
      part is a prefix of it. */
  lemma LabelShowsWord(d: ZombieData)
    requires d.typedChars <= d.word
    ensures Label(d) == d.word
  {
    var (typed, remaining) := Split(d);
    assert typed + remaining == d.word;
  }

  /** Repeated ticks keep the frame counter in the walk clip. */
  lemma {:induction false} FramesStayInClip(z: Zombie, dts: seq<real>, tx: real, ty: real, mover: Mover)
    requires FrameOk(z)
    ensures FrameOk(UpdateAll(z, dts, tx, ty, mover))
    ensures UpdateAll(z, dts, tx, ty, mover).data.word == z.data.word
    ensures UpdateAll(z, dts, tx, ty, mover).data.typedChars == z.data.typedChars
    decreases |dts|
  {
    if |dts| > 0 {
      FramesStayInClip(Update(z, dts[0], tx, ty, mover), dts[1..], tx, ty, mover);
    }
  }

  /** `Zombie.update` applied once per element of `dts`. */
  function UpdateAll(z: Zombie, dts: seq<real>, tx: real, ty: real, mover: Mover): Zombie
    decreases |dts|
  {
    if |dts| == 0 then z else UpdateAll(Update(z, dts[0], tx, ty, mover), dts[1..], tx, ty, mover)
  }
}
